=== FILE: README.md ===
# Chromatic Venn: the region logic, in Dafny

This project models the pure logic of two browser puzzles built on Venn
diagrams and proves what that logic guarantees.

**venn.js.** The first puzzle draws three or four sets labelled `A`, `B`, `C`,
`D`. Its logic:

- `getCombinations` lists every `k`-subset of the labels.
- `generateRegions` names one region per non-empty subset, e.g. `"AB"`.
- `areRegionsAdjacent` makes two regions neighbours when their names share a
  letter.
- `createGraph` turns that relation into graph edges.
- `calculateMaxPossibleArea` and `findOptimalColoring` run a greedy pass.
  They visit the regions from the largest area down and take each region
  that has no neighbour taken yet.
- `showSolution` repeats that pass for red, blue, green and yellow. Before
  each later colour it removes the regions already coloured.

**game.js.** The second puzzle has three draggable circles. Its logic:

- `getRegionPoints` samples the canvas on a 5-pixel grid. `pointIn` tests
  whether a point is inside a circle, boundary included. Each point is filed
  under the one region key (`a`, `b`, `c`, `ab`, `bc`, `ac`, `abc`) whose
  letters are exactly the circles that contain it.
- `areAdjacent` decides whether two regions touch. It uses their labels, or
  failing that their sampled points.
- `drawGraph` selects the nodes and edges of the region graph.
- `checkWin` compares the non-empty regions of the player's circles with
  those of a target.
- `generateTargetGraph` computes the target from jittered copies of the
  circles and then puts the player's circles back.

The modules follow that structure:

| module | file | content |
|---|---|---|
| `Seqs` | `seqs.dfy` | `Distinct` and `Shared`, with lemmas about them |
| `JsString` | `jsstring.dfy` | JavaScript's `<` on strings; the default `sort()` as a stable insertion sort |
| `Combinations` | `combinations.dfy` | `getCombinations` (`combine` and its `for` loop, as two mutually recursive functions) |
| `Regions` | `regions.dfy` | the id loop of `generateRegions` |
| `RegionGraph` | `regiongraph.dfy` | `areRegionsAdjacent` and the `createGraph` edge loop |
| `Coloring` | `coloring.dfy` | the area sort, the greedy pass, and the peeling loop of `showSolution` |
| `Classifier` | `classifier.dfy` | `pointIn`, the region classifier, and `getRegionPoints` as a method with nested loops |
| `GameGraph` | `gamegraph.dfy` | `areAdjacent`, node and edge selection in `drawGraph`, and `checkWin` |
| `Game` | `game.dfy` | `generateTargetGraph` |

Areas, circle centres and radii are exact `real`s. Grid points are `int`s.
Random values become parameters:

- the areas of the regions;
- the six jitters `(Math.random() - 0.5) * 100` of `generateTargetGraph`, an x and a y shift for each circle, given as three `Jitter` pairs.

`checkWin` returns a `bool`. It is true exactly when `checkWin` un-hides the win message.

## Model

| member | source | states |
|---|---|---|
| `Combinations.GetCombinations` | venn.js:87-105 | every combination has exactly `len` elements |
| `Combinations.CombinationsAreOrderedSelections` | venn.js:87-105 | there are C(n, len) combinations. Each one picks `arr` at strictly increasing indices. They come in lexicographic order of those indices, and every such index selection occurs |
| `Combinations.CombinationsOfDistinctLabels` | venn.js:90-103 | for labels without repetitions, each `len`-subset appears exactly once (C(n, len) results, no duplicates), and no combination repeats a label |
| `Regions.SetLabels` | venn.js:68 | the labels are a prefix of `ABCD` of length `min(numSets, 4)`, with no letter twice |
| `Regions.RegionIdsAreAllNonEmptySubsets` | venn.js:71-80 | for 1 to 4 sets, the loop names 2^n - 1 regions. All are different, each is the in-order join of a non-empty subset of the labels, and every such subset is named |
| `Regions.ThreeSetRegionIds` | venn.js:71-80 | for three sets the ids come out as `A, B, C, AB, AC, BC, ABC`, in that order |
| `RegionGraph.AreRegionsAdjacent` | venn.js:140-144 | true exactly when the two names share a letter |
| `RegionGraph.AdjacencySymmetricReflexive` | venn.js:140-144 | adjacency is symmetric, and a non-empty name is adjacent to itself |
| `RegionGraph.EdgeRowsCount` | venn.js:117-130 | for rows and keys without repetitions, the nested loops add an edge `(r1, r2)` once when `r1` is a row, `r2` a key, `r1 < r2` and they are adjacent, and zero times otherwise |
| `RegionGraph.CreateGraphEdges` | venn.js:117-130 | for distinct ids, each adjacent pair `r1 < r2` of ids gets exactly one edge and nothing else gets one. There are no self-loops, and each adjacent unordered pair has an edge in exactly one direction |
| `JsString.Sort` | game.js:299-300 | `sort()` returns a permutation of its input in ascending JavaScript string order |
| `JsString.SortIffSameElements` | game.js:299-304 | two string lists sort to the same list exactly when they hold the same strings, each as often |
| `Coloring.SortByArea` | venn.js:273-274 | the sort by `regions[b].area - regions[a].area` is a permutation of the regions, largest area first |
| `Coloring.SortByAreaIds` | venn.js:273-274 | sorting keeps the same ids, each as often as before |
| `Coloring.SortByAreaHead` | venn.js:273-274 | the first region after sorting is one of the regions, and no region is larger |
| `Coloring.PickGreedilyIndependent` | venn.js:279-285 | starting from an independent `toColor`, the greedy loop ends with an independent set |
| `Coloring.PickGreedilyMaximal` | venn.js:279-285 | after the greedy loop, every visited region is taken or has a taken neighbour |
| `Coloring.FindOptimalColoringIsIndependent` | venn.js:261-288 | `findOptimalColoring` returns region ids only, none twice, and no two different ones share a letter |
| `Coloring.FindOptimalColoringIsMaximal` | venn.js:261-288 | every region left out shares a letter with a region taken |
| `Coloring.FindOptimalColoringTakesLargestFirst` | venn.js:273-285 | on a non-empty input, a region of largest area is taken, and taken first |
| `Coloring.MaxPossibleAreaIsAreaOfOptimalColoring` | venn.js:208-236 | `calculateMaxPossibleArea` is exactly the total area of the regions `findOptimalColoring` picks for the same input |
| `Coloring.DominantRegionIsTakenAlone` | venn.js:261-288 | a strictly largest region that shares a letter with every region is the only region taken |
| `Coloring.GreedyIsNotAlwaysLargest` | venn.js:220-233 | the greedy set need not have the largest area: three sets whose `ABC` region is strictly largest but smaller than `A + B + C` give `["ABC"]`, while the independent set `A, B, C` covers more |
| `Coloring.Without` | venn.js:251-254 | after the deletions, exactly the regions whose ids were not in the solution remain |
| `Coloring.StepsShape` | venn.js:246-256 | the rounds of the colour loop take region ids only, no id in two rounds, and each round is independent |
| `Coloring.PaintRounds` | venn.js:249-256 | after painting, every id of round k has colour k, every painted id comes from some round, and ids no round takes keep their colour |
| `Coloring.PaintProper` | venn.js:249-256 | with one distinct colour per round, two different ids of the same colour do not share a letter |
| `Coloring.ShowSolutionIsProperPartialColouring` | venn.js:238-259 | red's round is `findOptimalColoring` of all regions, and the rounds are pairwise disjoint. Only region ids are coloured, every id of round k gets colour k, and no two different regions of one colour share a letter |
| `Classifier.PointInIsClosedDisc` | game.js:147-149 | for a whole-number centre and radius `r`, the four axis points at distance exactly `r` are inside, which a strict `<` would reject. The axis points at distance `r + 1` are outside, and so is the corner `(cx + r, cy + r)` for `r > 0`, so the test is round and not a box |
| `Classifier.Classify` | game.js:164-170 | the `if`/`else if` chain files a point under some key exactly when it is in some circle, and the key's letters are exactly the circles that contain the point |
| `Classifier.ClassifySignature` | game.js:164-170 | each key is what the chain returns for its own membership signature |
| `Classifier.GridIsTheLattice` | game.js:157-158 | the scan visits exactly the points with `0 <= x < w` and `0 <= y < h` whose coordinates are multiples of 5, each once, and none when `w <= 0` or `h <= 0` |
| `Classifier.GetRegionPoints` | game.js:151-174 | the nested loops return, for every key, the grid points of that region in scan order |
| `Classifier.RegionPointsPartition` | game.js:160-170 | a point is under a key exactly when it is a grid point lying in exactly that key's circles. So no point is under two keys, a point in no circle is under none, and no key lists a point twice |
| `Classifier.RegionPointsBounds` | game.js:154-158 | every filed point lies on the canvas with both coordinates multiples of 5; with `w <= 0` or `h <= 0` every key is empty |
| `Classifier.OverlappingCirclesFillEveryBin` | game.js:151-174 | three radius-50 circles centred at (100, 100), (140, 100) and (120, 135) on a canvas larger than 180 by 175 leave none of the seven keys empty |
| `GameGraph.AnyClose` | game.js:197-206 | the two point loops return true exactly when some point of one list is within squared distance 25 of some point of the other |
| `GameGraph.AdjacencyByLabelOrByPoints` | game.js:188-206 | labels that share a circle, one of them naming two or more circles, are adjacent whatever the points. Any other pair is adjacent exactly when two of their sampled points are within squared distance 25 |
| `GameGraph.AdjacencySymmetric` | game.js:188-206 | `areAdjacent` gives the same answer with its labels swapped |
| `GameGraph.DrawGraphNodesAndEdges` | game.js:210-230 | the nodes are exactly the non-empty keys, each once, in key order. The edges are exactly the pairs of nodes, first one earlier in key order, that `areAdjacent` accepts, each once, and never a node to itself |
| `GameGraph.SameFrom` | game.js:302-304 | the element loop finds no difference exactly when the two lists agree from index `i` on |
| `GameGraph.CheckWin` | game.js:298-305 | `checkWin` un-hides the win message exactly when the sorted lists of non-empty labels are equal |
| `GameGraph.CheckWinIffSameNonEmptyRegions` | game.js:298-305 | `checkWin` un-hides the win message exactly when the same keys are non-empty in the current and the target map. Point counts and positions do not matter |
| `GameGraph.CheckWinReflexiveSymmetric` | game.js:298-305 | `checkWin` accepts a map against itself and is symmetric |
| `Game.MovedShiftsMembership` | game.js:288-291 | for a whole-number jitter, a point shifted by the jitter is inside the moved copy exactly when the original point is inside the original circle |
| `Game.UniformShiftKeepsRegions` | game.js:286-296 | when all three circles take the same whole-number jitter, a shifted point falls in the same region of the moved circles as the original point in the original circles |
| `Game.GenerateTargetGraph` | game.js:286-296 | the circles and canvas size come back unchanged. The target holds the regions of the jittered circles |
| `Game.UnmovedTargetIsWon` | game.js:286-305 | with zero jitter the target equals the player's own regions, and `checkWin` accepts them |

## Left out

- The win message stays visible once `checkWin` has un-hidden it: only `resetGame` (game.js:81) hides it again. The model gives the result of one `checkWin` call and does not track the message across calls.
- `Game.GenerateTargetGraph`: circles are modelled as immutable values, so the sharing that the per-circle copy `{ ...c }` (game.js:287) avoids cannot arise in the model. The jitter loop at game.js:288-291 mutates those copies in place. That the player's circles stay unjittered is modelled only as the restore at game.js:292-295, and object identity and aliasing are not modelled.
- Everything that draws or listens is left out: Cytoscape, canvas and DOM calls, `initializeGame`, `setupEventListeners`, `updateAreaTotals`, `draw`, the cos/sin node placement in `drawGraph`, the win-message toggling and `alert`. None of it affects the region logic.
- `Math.random` is left out. The areas, the choice of three or four sets and the target jitter are parameters instead.
- The area normalisation of `generateRegions` (venn.js:83-84) is left out. It divides every area by the same positive total, which does not change the descending-area order the greedy pass depends on.
- Floating-point rounding is left out: areas, distances and radii are exact reals.
- `checkSolution` (venn.js:177-206) is left out. It uses a 0.001 tolerance and removes regions by the player's current colours.
- `getRegionCenter` is left out, because it only positions labels on screen.
- The mouse and touch drag-and-scale handlers of game.js, including the radius clamp, are left out. They are input handling.
- The `label` field of a circle is left out, because the classifier never reads it.
- `Coloring.SortByArea` is a stable insertion sort, as JavaScript's `sort` is required to be since ES2019, so regions of equal area keep their relative order. Stability is not proved: the contract states a permutation in descending area and nothing about ties. `Coloring.PickGreedilyIndependent` and `Coloring.PickGreedilyMaximal` hold for any visiting order.
- `Coloring.FindOptimalColoringIsIndependent` requires distinct region ids. The keys of a JavaScript object are distinct, and the `toColor` set of venn.js also drops repeats that a sequence would keep.
- `Regions.RegionIdsAreAllNonEmptySubsets` requires at most four sets. The label list never has more than four letters, and venn.js only draws three or four.
- `JsString.Sort` compares Dafny characters, not UTF-16 code units. The same order holds for the ASCII labels used here.
- The edge list of `createGraph` is returned as a sequence of pairs. The `cose` layout run after it is left out.

=== FILE: classifier.dfy ===
/**
 * The three-circle classifier of game.js: `pointIn` and `getRegionPoints`,
 * which samples the canvas on a grid of step `gridStep` and files every
 * sampled point under the one region (`a`, `b`, `c`, `ab`, `bc`, `ac`,
 * `abc`) whose letters are exactly the circles containing it.
 */
module Classifier {
  import opened Seqs

  /** The spacing of the sampling grid, fixed at 5 pixels when the game is built. */
  const GridStep: int := 5

  /** A sampled grid point; the scan only produces integer coordinates. */
  datatype Point = Point(x: int, y: int)

  /** A circle of the puzzle: centre and radius (the `label` field is never read here). */
  datatype Circle = Circle(x: real, y: real, r: real)

  /** The game's three circles, in the order A, B, C. */
  datatype Circles = Circles(a: Circle, b: Circle, c: Circle)

  datatype Option<T> = None | Some(value: T)

  /** Whether `p` lies inside `circle` or on its edge: its squared distance from the centre is at most r². */
  predicate PointIn(circle: Circle, p: Point)
  {
    var dx := p.x as real - circle.x;
    var dy := p.y as real - circle.y;
    dx * dx + dy * dy <= circle.r * circle.r
  }

  /**
   * The test is a closed disc. For a circle with a whole-number centre and
   * radius `r`, the four points at distance exactly `r` along the axes are
   * inside, where a strict `<` would leave them out. The points one step
   * further out are outside, and so is the corner `(cx + r, cy + r)` of the
   * bounding square when `r > 0`, so the test is not a box test.
   */
  lemma PointInIsClosedDisc(cx: int, cy: int, r: nat)
    ensures var c := Circle(cx as real, cy as real, r as real);
            && PointIn(c, Point(cx + r, cy)) && PointIn(c, Point(cx - r, cy))
            && PointIn(c, Point(cx, cy + r)) && PointIn(c, Point(cx, cy - r))
            && !PointIn(c, Point(cx + r + 1, cy)) && !PointIn(c, Point(cx, cy - r - 1))
            && (r > 0 ==> !PointIn(c, Point(cx + r, cy + r)))
  {
  }

  // ---------------------------------------------------------------------------
  // Regions and their labels

  /** The seven keys of the `regions` object. */
  datatype Bin = A | B | C | AB | BC | AC | ABC
  {
    function Label(): string
    {
      match this
      case A => "a"
      case B => "b"
      case C => "c"
      case AB => "ab"
      case BC => "bc"
      case AC => "ac"
      case ABC => "abc"
    }

    /** Whether circle A, B, C (in that order) is one of the bin's circles. */
    predicate HasA() { this in {A, AB, AC, ABC} }
    predicate HasB() { this in {B, AB, BC, ABC} }
    predicate HasC() { this in {C, BC, AC, ABC} }
  }

  /** The keys in the order the object literal `{ a, b, c, ab, bc, ac, abc }` lists them. */
  const AllBins: seq<Bin> := [A, B, C, AB, BC, AC, ABC]

  /** The label of a bin spells out its circles, and different bins have different labels. */
  lemma LabelsSpellCircles(b: Bin, b': Bin)
    ensures ('a' in b.Label()) == b.HasA() && ('b' in b.Label()) == b.HasB() && ('c' in b.Label()) == b.HasC()
    ensures |b.Label()| == (if b.HasA() then 1 else 0) + (if b.HasB() then 1 else 0) + (if b.HasC() then 1 else 0)
    ensures b.Label() == b'.Label() ==> b == b'
  {
  }

  /** Every bin is listed once among the keys. */
  lemma AllBinsListsEveryBin(b: Bin)
    ensures b in AllBins && Distinct(AllBins)
  {
  }

  /**
   * The `if ... else if ...` chain of `getRegionPoints`: the bin for a point
   * with membership `inA`, `inB`, `inC`, or none for a point in no circle.
   */
  function Classify(inA: bool, inB: bool, inC: bool): (r: Option<Bin>)
    ensures r.Some? <==> inA || inB || inC
    ensures r.Some? ==> r.value.HasA() == inA && r.value.HasB() == inB && r.value.HasC() == inC
  {
    if inA && !inB && !inC then Some(A)
    else if inB && !inA && !inC then Some(B)
    else if inC && !inA && !inB then Some(C)
    else if inA && inB && !inC then Some(AB)
    else if inA && inC && !inB then Some(AC)
    else if inB && inC && !inA then Some(BC)
    else if inA && inB && inC then Some(ABC)
    else None
  }

  /** Classifying a bin's own signature gives back the bin, so the signature names the bin uniquely. */
  lemma ClassifySignature(b: Bin)
    ensures Classify(b.HasA(), b.HasB(), b.HasC()) == Some(b)
  {
  }

  /** The bin a point falls in for the given circles. */
  function Where(cs: Circles, p: Point): Option<Bin>
  {
    Classify(PointIn(cs.a, p), PointIn(cs.b, p), PointIn(cs.c, p))
  }

  // ---------------------------------------------------------------------------
  // The sampling grid, in scan order

  /** The inner loop at column `x`: the points from row `y` down to the bottom edge `h`, one grid step apart. */
  function Column(x: int, y: int, h: int): seq<Point>
    decreases h - y
  {
    if y >= h then [] else [Point(x, y)] + Column(x, y + GridStep, h)
  }

  /** The outer loop: the columns from `x` to the right edge `w`, one grid step apart, each scanned from `y = 0`. */
  function Columns(x: int, w: int, h: int): seq<Point>
    decreases w - x
  {
    if x >= w then [] else Column(x, 0, h) + Columns(x + GridStep, w, h)
  }

  /** Every point the scan visits, in visiting order. */
  function Grid(w: int, h: int): seq<Point>
  {
    Columns(0, w, h)
  }

  lemma {:induction false} ColumnMembers(x: int, y: int, h: int, p: Point)
    requires y % GridStep == 0
    ensures p in Column(x, y, h) <==> p.x == x && y <= p.y < h && p.y % GridStep == 0
    decreases h - y
  {
    if y < h {
      ColumnMembers(x, y + GridStep, h, p);
    }
  }

  lemma {:induction false} ColumnDistinct(x: int, y: int, h: int)
    requires y % GridStep == 0
    ensures Distinct(Column(x, y, h))
    decreases h - y
  {
    if y < h {
      var rest := Column(x, y + GridStep, h);
      ColumnDistinct(x, y + GridStep, h);
      ColumnMembers(x, y + GridStep, h, Point(x, y));
      DistinctConcat([Point(x, y)], rest);
    }
  }

  lemma {:induction false} ColumnsMembers(x: int, w: int, h: int, p: Point)
    requires x % GridStep == 0
    ensures p in Columns(x, w, h) <==> x <= p.x < w && p.x % GridStep == 0 && 0 <= p.y < h && p.y % GridStep == 0
    decreases w - x
  {
    if x < w {
      ColumnMembers(x, 0, h, p);
      ColumnsMembers(x + GridStep, w, h, p);
    }
  }

  lemma {:induction false} ColumnsDistinct(x: int, w: int, h: int)
    requires x % GridStep == 0
    ensures Distinct(Columns(x, w, h))
    decreases w - x
  {
    if x < w {
      var col := Column(x, 0, h);
      var rest := Columns(x + GridStep, w, h);
      ColumnDistinct(x, 0, h);
      ColumnsDistinct(x + GridStep, w, h);
      forall p | p in col
        ensures p !in rest
      {
        ColumnMembers(x, 0, h, p);
        ColumnsMembers(x + GridStep, w, h, p);
      }
      DistinctConcat(col, rest);
    }
  }

  /**
   * The scan visits exactly the points with `0 <= x < w`, `0 <= y < h` and
   * both coordinates multiples of `gridStep`, each one once; nothing at all
   * when `w <= 0` or `h <= 0`.
   */
  lemma GridIsTheLattice(w: int, h: int)
    ensures forall p :: p in Grid(w, h) <==> 0 <= p.x < w && 0 <= p.y < h && p.x % GridStep == 0 && p.y % GridStep == 0
    ensures Distinct(Grid(w, h))
    ensures w <= 0 || h <= 0 ==> Grid(w, h) == []
  {
    forall p
      ensures p in Grid(w, h) <==> 0 <= p.x < w && 0 <= p.y < h && p.x % GridStep == 0 && p.y % GridStep == 0
    {
      ColumnsMembers(0, w, h, p);
    }
    ColumnsDistinct(0, w, h);
    if (w <= 0 || h <= 0) && Grid(w, h) != [] {
      var p := Grid(w, h)[0];
      assert p in Grid(w, h);
    }
  }

  // ---------------------------------------------------------------------------
  // The bins

  /** The points of `pts` that land in `bin`, in their original order. */
  function Binned(cs: Circles, pts: seq<Point>, bin: Bin): seq<Point>
  {
    if pts == [] then []
    else (if Where(cs, pts[0]) == Some(bin) then [pts[0]] else []) + Binned(cs, pts[1..], bin)
  }

  lemma {:induction false} BinnedMembers(cs: Circles, pts: seq<Point>, bin: Bin)
    ensures forall p :: p in Binned(cs, pts, bin) <==> p in pts && Where(cs, p) == Some(bin)
    ensures Distinct(pts) ==> Distinct(Binned(cs, pts, bin))
  {
    if pts != [] {
      BinnedMembers(cs, pts[1..], bin);
      assert pts == [pts[0]] + pts[1..];
      if Distinct(pts) {
        DistinctTail(pts);
        DistinctConcat(if Where(cs, pts[0]) == Some(bin) then [pts[0]] else [], Binned(cs, pts[1..], bin));
      }
    }
  }

  /** The `regions` object: one list of points per key. */
  datatype RegionPoints = RegionPoints(a: seq<Point>, b: seq<Point>, c: seq<Point>,
                                       ab: seq<Point>, bc: seq<Point>, ac: seq<Point>, abc: seq<Point>)
  {
    /** The points filed so far under `bin`. */
    function Get(bin: Bin): seq<Point>
    {
      match bin
      case A => a
      case B => b
      case C => c
      case AB => ab
      case BC => bc
      case AC => ac
      case ABC => abc
    }

    /** Files `p` at the end of `bin`'s list and leaves the other keys alone. */
    function Add(bin: Bin, p: Point): (r: RegionPoints)
      ensures r.Get(bin) == Get(bin) + [p]
      ensures forall other :: other != bin ==> r.Get(other) == Get(other)
    {
      match bin
      case A => this.(a := a + [p])
      case B => this.(b := b + [p])
      case C => this.(c := c + [p])
      case AB => this.(ab := ab + [p])
      case BC => this.(bc := bc + [p])
      case AC => this.(ac := ac + [p])
      case ABC => this.(abc := abc + [p])
    }
  }

  const NoPoints := RegionPoints([], [], [], [], [], [], [])

  /** Two region maps with the same points under every key are the same. */
  lemma RegionPointsExtensional(r: RegionPoints, s: RegionPoints)
    requires forall bin :: r.Get(bin) == s.Get(bin)
    ensures r == s
  {
    assert r.Get(A) == s.Get(A) && r.Get(B) == s.Get(B) && r.Get(C) == s.Get(C);
    assert r.Get(AB) == s.Get(AB) && r.Get(BC) == s.Get(BC) && r.Get(AC) == s.Get(AC);
    assert r.Get(ABC) == s.Get(ABC);
  }

  /** What `getRegionPoints` returns: for each key, the grid points of that region in scan order. */
  function RegionPointsOf(cs: Circles, w: int, h: int): (r: RegionPoints)
    ensures forall bin :: r.Get(bin) == Binned(cs, Grid(w, h), bin)
  {
    var g := Grid(w, h);
    RegionPoints(Binned(cs, g, A), Binned(cs, g, B), Binned(cs, g, C),
                 Binned(cs, g, AB), Binned(cs, g, BC), Binned(cs, g, AC), Binned(cs, g, ABC))
  }

  /** `regions` holds the points of `total` that precede `todo`: what remains to scan is exactly `todo`. */
  predicate Scanned(cs: Circles, regions: RegionPoints, todo: seq<Point>, total: seq<Point>)
  {
    forall bin :: regions.Get(bin) + Binned(cs, todo, bin) == Binned(cs, total, bin)
  }

  /** The bins after filing `p`: unchanged when `p` is in no circle. */
  function File(regions: RegionPoints, p: Point, where: Option<Bin>): RegionPoints
  {
    if where.Some? then regions.Add(where.value, p) else regions
  }

  /** Filing the next point of the scan keeps the bins in step with what is left. */
  lemma ScanStep(cs: Circles, regions: RegionPoints, p: Point, rest: seq<Point>, total: seq<Point>)
    requires Scanned(cs, regions, [p] + rest, total)
    ensures Scanned(cs, File(regions, p, Where(cs, p)), rest, total)
  {
    var after := File(regions, p, Where(cs, p));
    forall bin
      ensures after.Get(bin) + Binned(cs, rest, bin) == Binned(cs, total, bin)
    {
      assert ([p] + rest)[1..] == rest;
      assert after.Get(bin) == regions.Get(bin) + (if Where(cs, p) == Some(bin) then [p] else []);
    }
  }

  /** Visiting `(x, y)` with `y < h`: the point is filed and the rest of the column is left. */
  lemma ScanPoint(cs: Circles, regions: RegionPoints, x: int, y: int, h: int, after: seq<Point>, total: seq<Point>)
    requires y < h
    requires Scanned(cs, regions, Column(x, y, h) + after, total)
    ensures Scanned(cs, File(regions, Point(x, y), Where(cs, Point(x, y))), Column(x, y + GridStep, h) + after, total)
  {
    var rest := Column(x, y + GridStep, h) + after;
    assert Column(x, y, h) + after == [Point(x, y)] + rest;
    ScanStep(cs, regions, Point(x, y), rest, total);
  }

  /** Leaving column `x` when `y >= h`: nothing of it is left. */
  lemma ColumnDone(x: int, y: int, h: int, after: seq<Point>)
    requires y >= h
    ensures Column(x, y, h) + after == after
  {
  }

  /** Entering column `x < w`: what is left is the whole column, then the later columns. */
  lemma ColumnsStep(x: int, w: int, h: int)
    requires x < w
    ensures Columns(x, w, h) == Column(x, 0, h) + Columns(x + GridStep, w, h)
  {
  }

  /** Once `x >= w` nothing is left to scan, so the bins hold the whole grid. */
  lemma ScanDone(cs: Circles, regions: RegionPoints, x: int, w: int, h: int)
    requires x >= w
    requires Scanned(cs, regions, Columns(x, w, h), Grid(w, h))
    ensures regions == RegionPointsOf(cs, w, h)
  {
    forall bin
      ensures regions.Get(bin) == RegionPointsOf(cs, w, h).Get(bin)
    {
      assert Binned(cs, Columns(x, w, h), bin) == [];
    }
    RegionPointsExtensional(regions, RegionPointsOf(cs, w, h));
  }

  /** `getRegionPoints()`: the two nested grid loops, filing each point by `pointIn` against A, B and C. */
  method GetRegionPoints(cs: Circles, w: int, h: int) returns (regions: RegionPoints)
    ensures regions == RegionPointsOf(cs, w, h)
  {
    regions := NoPoints;
    var x := 0;
    while x < w
      invariant Scanned(cs, regions, Columns(x, w, h), Grid(w, h))
      decreases w - x
    {
      ColumnsStep(x, w, h);
      var later := Columns(x + GridStep, w, h);
      var y := 0;
      while y < h
        invariant Scanned(cs, regions, Column(x, y, h) + later, Grid(w, h))
        decreases h - y
      {
        var p := Point(x, y);
        var inA := PointIn(cs.a, p);
        var inB := PointIn(cs.b, p);
        var inC := PointIn(cs.c, p);
        var bin := Classify(inA, inB, inC);
        ScanPoint(cs, regions, x, y, h, later, Grid(w, h));
        if bin.Some? {
          regions := regions.Add(bin.value, p);
        }
        y := y + GridStep;
      }
      ColumnDone(x, y, h, later);
      x := x + GridStep;
    }
    ScanDone(cs, regions, x, w, h);
  }

  // ---------------------------------------------------------------------------
  // What the bins hold

  /** Circle membership of a point, written out as the letters of a label. */
  predicate InCircles(cs: Circles, bin: Bin, p: Point)
  {
    PointIn(cs.a, p) == bin.HasA() && PointIn(cs.b, p) == bin.HasB() && PointIn(cs.c, p) == bin.HasC()
  }

  /**
   * `getRegionPoints` partitions the grid points inside the circles: a point
   * is filed under `bin` exactly when it is a grid point and the circles
   * containing it are exactly the letters of `bin`'s label; so no point is in
   * two bins, a point in no circle is in no bin, and no bin lists a point
   * twice.
   */
  lemma RegionPointsPartition(cs: Circles, w: int, h: int)
    ensures var r := RegionPointsOf(cs, w, h);
            && (forall bin, p :: p in r.Get(bin) <==> p in Grid(w, h) && InCircles(cs, bin, p))
            && (forall bin, bin', p :: p in r.Get(bin) && p in r.Get(bin') ==> bin == bin')
            && (forall p :: p in Grid(w, h) ==> ((exists bin :: p in r.Get(bin)) <==> PointIn(cs.a, p) || PointIn(cs.b, p) || PointIn(cs.c, p)))
            && (forall bin :: Distinct(r.Get(bin)))
  {
    var r := RegionPointsOf(cs, w, h);
    var g := Grid(w, h);
    GridIsTheLattice(w, h);
    forall bin
      ensures forall p :: p in r.Get(bin) <==> p in g && Where(cs, p) == Some(bin)
      ensures Distinct(r.Get(bin))
    {
      BinnedMembers(cs, g, bin);
    }
    forall bin, p
      ensures Where(cs, p) == Some(bin) <==> InCircles(cs, bin, p)
    {
      ClassifySignature(bin);
    }
    forall p | p in g
      ensures (exists bin :: p in r.Get(bin)) <==> PointIn(cs.a, p) || PointIn(cs.b, p) || PointIn(cs.c, p)
    {
      var w := Where(cs, p);
      if w.Some? {
        assert p in r.Get(w.value);
      }
    }
  }

  /**
   * Every filed point lies on the canvas, `0 <= x < w` and `0 <= y < h`, with
   * both coordinates multiples of `gridStep`; with `w <= 0` or `h <= 0` every
   * bin is empty.
   */
  lemma RegionPointsBounds(cs: Circles, w: int, h: int)
    ensures var r := RegionPointsOf(cs, w, h);
            && (forall bin, p :: p in r.Get(bin) ==> 0 <= p.x < w && 0 <= p.y < h && p.x % GridStep == 0 && p.y % GridStep == 0)
            && (w <= 0 || h <= 0 ==> r == NoPoints)
  {
    var r := RegionPointsOf(cs, w, h);
    GridIsTheLattice(w, h);
    forall bin {
      BinnedMembers(cs, Grid(w, h), bin);
    }
    if w <= 0 || h <= 0 {
      RegionPointsExtensional(r, NoPoints);
    }
  }

  /** A point on the canvas grid that lies in exactly the circles of `bin` is filed under `bin`. */
  lemma FiledUnder(cs: Circles, w: int, h: int, p: Point, bin: Bin)
    requires 0 <= p.x < w && 0 <= p.y < h && p.x % GridStep == 0 && p.y % GridStep == 0
    requires InCircles(cs, bin, p)
    ensures p in RegionPointsOf(cs, w, h).Get(bin)
  {
    RegionPointsPartition(cs, w, h);
    GridIsTheLattice(w, h);
  }

  /**
   * Three circles of radius 50 centred at (100, 100), (140, 100) and
   * (120, 135) on a canvas larger than 180 by 175 give all seven regions a
   * sampled point.
   */
  lemma OverlappingCirclesFillEveryBin(w: int, h: int)
    requires w > 180 && h > 175
    ensures var r := RegionPointsOf(Circles(Circle(100.0, 100.0, 50.0), Circle(140.0, 100.0, 50.0), Circle(120.0, 135.0, 50.0)), w, h);
            forall bin :: |r.Get(bin)| > 0
  {
    var cs := Circles(Circle(100.0, 100.0, 50.0), Circle(140.0, 100.0, 50.0), Circle(120.0, 135.0, 50.0));
    var r := RegionPointsOf(cs, w, h);
    FiledUnder(cs, w, h, Point(60, 100), A);
    FiledUnder(cs, w, h, Point(180, 100), B);
    FiledUnder(cs, w, h, Point(120, 175), C);
    FiledUnder(cs, w, h, Point(120, 70), AB);
    FiledUnder(cs, w, h, Point(155, 130), BC);
    FiledUnder(cs, w, h, Point(85, 130), AC);
    FiledUnder(cs, w, h, Point(120, 110), ABC);
    forall bin
      ensures |r.Get(bin)| > 0
    {
      match bin
      case A => assert Point(60, 100) in r.Get(A);
      case B => assert Point(180, 100) in r.Get(B);
      case C => assert Point(120, 175) in r.Get(C);
      case AB => assert Point(120, 70) in r.Get(AB);
      case BC => assert Point(155, 130) in r.Get(BC);
      case AC => assert Point(85, 130) in r.Get(AC);
      case ABC => assert Point(120, 110) in r.Get(ABC);
    }
  }
}

=== FILE: coloring.dfy ===
/**
 * The greedy colouring of venn.js: `calculateMaxPossibleArea` and
 * `findOptimalColoring` pick regions in descending order of area, taking each
 * region none of whose neighbours is already taken; `showSolution` repeats
 * that pick once per colour in priority order, removing the regions already
 * coloured before the next colour.
 */
module Coloring {
  import opened Seqs
  import opened RegionGraph

  /** An entry of `this.regions`: its id and its area. The colour is kept in a separate map. */
  datatype Region = Region(id: string, area: real)

  /** The region ids, in the order the regions are stored. */
  function Ids(regions: seq<Region>): (ids: seq<string>)
    ensures |ids| == |regions| && forall k :: 0 <= k < |regions| ==> ids[k] == regions[k].id
  {
    seq(|regions|, k requires 0 <= k < |regions| => regions[k].id)
  }

  // ---------------------------------------------------------------------------
  // Sorting the regions by descending area

  predicate ByDescendingArea(regions: seq<Region>) {
    forall i, j :: 0 <= i < j < |regions| ==> regions[j].area <= regions[i].area
  }

  lemma DescendingCons(h: Region, t: seq<Region>)
    requires ByDescendingArea(t)
    requires forall r :: r in t ==> r.area <= h.area
    ensures ByDescendingArea([h] + t)
  {
    forall i, j | 0 <= i < j < |[h] + t|
      ensures ([h] + t)[j].area <= ([h] + t)[i].area
    {
      assert ([h] + t)[j] == t[j - 1];
      if i > 0 {
        assert ([h] + t)[i] == t[i - 1];
      }
    }
  }

  /** `Ids` distributes over putting one region in front. */
  lemma IdsCons(h: Region, t: seq<Region>)
    ensures Ids([h] + t) == [h.id] + Ids(t)
  {
  }

  /** Every region of a permutation of `x` and a descending `s[1..]` is no larger than `s[0]`, when `x` is smaller. */
  lemma BoundedByHead(x: Region, s: seq<Region>, rest: seq<Region>)
    requires ByDescendingArea(s) && |s| > 0 && x.area < s[0].area
    requires multiset(rest) == multiset(s[1..]) + multiset{x}
    ensures forall r :: r in rest ==> r.area <= s[0].area
  {
    forall r | r in rest ensures r.area <= s[0].area {
      assert r in multiset(rest);
      if r != x {
        assert r in s[1..];
        var k :| 0 <= k < |s[1..]| && s[1..][k] == r;
        assert s[k + 1] == r;
      }
    }
  }

  lemma DescendingTail(s: seq<Region>)
    requires ByDescendingArea(s) && s != []
    ensures ByDescendingArea(s[1..])
  {
    forall i, j | 0 <= i < j < |s| - 1 ensures s[1..][j].area <= s[1..][i].area {
      assert s[1..][i] == s[i + 1] && s[1..][j] == s[j + 1];
    }
  }

  /** In a descending list whose head is no larger than `x`, no region is larger than `x`. */
  lemma HeadBoundsArea(x: Region, s: seq<Region>)
    requires ByDescendingArea(s) && (s == [] || s[0].area <= x.area)
    ensures forall r :: r in s ==> r.area <= x.area
  {
    forall r | r in s ensures r.area <= x.area {
      var k :| 0 <= k < |s| && s[k] == r;
    }
  }

  /** Inserts `x` before the first region that is not larger, so equal areas keep their original order. */
  function InsertByArea(x: Region, s: seq<Region>): (r: seq<Region>)
    requires ByDescendingArea(s)
    ensures ByDescendingArea(r)
    ensures multiset(r) == multiset(s) + multiset{x}
  {
    if s == [] || s[0].area <= x.area then
      HeadBoundsArea(x, s);
      DescendingCons(x, s);
      [x] + s
    else
      DescendingTail(s);
      var rest := InsertByArea(x, s[1..]);
      BoundedByHead(x, s, rest);
      DescendingCons(s[0], rest);
      assert s == [s[0]] + s[1..];
      [s[0]] + rest
  }

  lemma {:induction false} InsertByAreaIds(x: Region, s: seq<Region>)
    requires ByDescendingArea(s)
    ensures multiset(Ids(InsertByArea(x, s))) == multiset(Ids(s)) + multiset{x.id}
  {
    if s == [] || s[0].area <= x.area {
      IdsMultisetCons(x, s);
    } else {
      InsertByAreaIds(x, s[1..]);
      IdsMultisetTail(s);
      IdsMultisetCons(s[0], InsertByArea(x, s[1..]));
    }
  }

  /** The stable sort by descending area: a permutation of the regions, largest area first. */
  function SortByArea(regions: seq<Region>): (r: seq<Region>)
    ensures ByDescendingArea(r)
    ensures multiset(r) == multiset(regions)
  {
    if regions == [] then []
    else
      assert regions == [regions[0]] + regions[1..];
      InsertByArea(regions[0], SortByArea(regions[1..]))
  }

  /** Sorting permutes the ids too: the same ids, each as often as before. */
  lemma IdsMultisetCons(h: Region, t: seq<Region>)
    ensures multiset(Ids([h] + t)) == multiset(Ids(t)) + multiset{h.id}
  {
    IdsCons(h, t);
  }

  /** Sorting a non-empty list inserts its first region into the sorted rest, ids included. */
  lemma SortByAreaStepIds(regions: seq<Region>)
    requires regions != []
    ensures multiset(Ids(SortByArea(regions))) == multiset(Ids(SortByArea(regions[1..]))) + multiset{regions[0].id}
  {
    assert SortByArea(regions) == InsertByArea(regions[0], SortByArea(regions[1..]));
    InsertByAreaIds(regions[0], SortByArea(regions[1..]));
  }

  lemma IdsMultisetTail(regions: seq<Region>)
    requires regions != []
    ensures multiset(Ids(regions)) == multiset(Ids(regions[1..])) + multiset{regions[0].id}
  {
    assert regions == [regions[0]] + regions[1..];
    IdsMultisetCons(regions[0], regions[1..]);
  }

  lemma {:induction false} SortByAreaIds(regions: seq<Region>)
    ensures multiset(Ids(SortByArea(regions))) == multiset(Ids(regions))
  {
    if regions != [] {
      SortByAreaStepIds(regions);
      SortByAreaIds(regions[1..]);
      IdsMultisetTail(regions);
    }
  }

  /** The head of a descending permutation of `regions` is one of them, and none is larger. */
  lemma DescendingHead(s: seq<Region>, regions: seq<Region>)
    requires ByDescendingArea(s) && multiset(s) == multiset(regions) && |regions| > 0
    ensures |s| > 0 && s[0] in regions && forall r :: r in regions ==> r.area <= s[0].area
  {
    assert |s| == |multiset(s)| == |regions|;
    assert s[0] in multiset(regions);
    forall r | r in regions
      ensures r.area <= s[0].area
    {
      assert r in multiset(s);
      var k :| 0 <= k < |s| && s[k] == r;
    }
  }

  /** The first region after sorting is one of the regions, and no region is larger. */
  lemma SortByAreaHead(regions: seq<Region>)
    requires |regions| > 0
    ensures var top := SortByArea(regions)[0];
            top in regions && forall r :: r in regions ==> r.area <= top.area
  {
    DescendingHead(SortByArea(regions), regions);
  }

  // ---------------------------------------------------------------------------
  // The greedy pass

  /** `graph.get(region)`: the other keys whose ids share a label with `id`. */
  function Neighbours(keys: seq<string>, id: string): set<string>
  {
    set n | n in keys && n != id && AreRegionsAdjacent(id, n)
  }

  /** The `sortedRegions.forEach` loop of `findOptimalColoring`, with `toColor` the regions taken so far. */
  function PickGreedily(keys: seq<string>, sorted: seq<Region>, toColor: seq<string>): seq<string>
  {
    if sorted == [] then toColor
    else
      var region := sorted[0].id;
      if exists n :: n in Neighbours(keys, region) && n in toColor then
        PickGreedily(keys, sorted[1..], toColor)
      else
        PickGreedily(keys, sorted[1..], toColor + [region])
  }

  /** `findOptimalColoring(regions, color)`: the ids taken, in the order they were taken. */
  function FindOptimalColoring(regions: seq<Region>): seq<string>
  {
    PickGreedily(Ids(regions), SortByArea(regions), [])
  }

  /** The loop of `calculateMaxPossibleArea`, with its own `colored` set and running `totalArea`. */
  function SumGreedily(keys: seq<string>, sorted: seq<Region>, colored: set<string>, totalArea: real): real
  {
    if sorted == [] then totalArea
    else
      var region := sorted[0];
      if exists n :: n in Neighbours(keys, region.id) && n in colored then
        SumGreedily(keys, sorted[1..], colored, totalArea)
      else
        SumGreedily(keys, sorted[1..], colored + {region.id}, totalArea + region.area)
  }

  /** The total area of the regions the greedy pass takes, summed as it takes them. */
  function CalculateMaxPossibleArea(regions: seq<Region>): real
  {
    SumGreedily(Ids(regions), SortByArea(regions), {}, 0.0)
  }

  /** No two different chosen ids share a label. */
  predicate Independent(chosen: seq<string>) {
    forall i, j :: 0 <= i < |chosen| && 0 <= j < |chosen| && chosen[i] != chosen[j] ==>
      !AreRegionsAdjacent(chosen[i], chosen[j])
  }

  /** Some other chosen id shares a label with `id`. */
  predicate Dominated(chosen: seq<string>, id: string) {
    exists n :: n in chosen && n != id && AreRegionsAdjacent(id, n)
  }

  /** The sum of the areas of the regions whose id is in `ids`. */
  function AreaOf(regions: seq<Region>, ids: seq<string>): real
  {
    if regions == [] then 0.0
    else (if regions[0].id in ids then regions[0].area else 0.0) + AreaOf(regions[1..], ids)
  }

  lemma {:induction false} PickGreedilyShape(keys: seq<string>, sorted: seq<Region>, toColor: seq<string>)
    ensures var g := PickGreedily(keys, sorted, toColor);
            && |toColor| <= |g| && g[..|toColor|] == toColor
            && forall id :: id in g ==> id in toColor || id in Ids(sorted)
  {
    if sorted != [] {
      var region := sorted[0].id;
      assert Ids(sorted) == [region] + Ids(sorted[1..]);
      if exists n :: n in Neighbours(keys, region) && n in toColor {
        PickGreedilyShape(keys, sorted[1..], toColor);
      } else {
        PickGreedilyShape(keys, sorted[1..], toColor + [region]);
        var g := PickGreedily(keys, sorted, toColor);
        assert g[..|toColor|] == g[..|toColor| + 1][..|toColor|];
      }
    }
  }

  lemma {:induction false} PickGreedilyIndependent(keys: seq<string>, sorted: seq<Region>, toColor: seq<string>)
    requires forall k :: 0 <= k < |sorted| ==> sorted[k].id in keys
    requires forall id :: id in toColor ==> id in keys
    requires Independent(toColor)
    ensures Independent(PickGreedily(keys, sorted, toColor))
  {
    if sorted != [] {
      var region := sorted[0].id;
      if exists n :: n in Neighbours(keys, region) && n in toColor {
        PickGreedilyIndependent(keys, sorted[1..], toColor);
      } else {
        var next := toColor + [region];
        forall i, j | 0 <= i < |next| && 0 <= j < |next| && next[i] != next[j]
          ensures !AreRegionsAdjacent(next[i], next[j])
        {
          if i < |toColor| && j < |toColor| {
          } else if i == |toColor| {
            assert next[j] in toColor && next[j] !in Neighbours(keys, region);
          } else {
            assert next[i] in toColor && next[i] !in Neighbours(keys, region);
            AdjacencySymmetricReflexive(next[i], region);
          }
        }
        PickGreedilyIndependent(keys, sorted[1..], next);
      }
    }
  }

  lemma {:induction false} PickGreedilyMaximal(keys: seq<string>, sorted: seq<Region>, toColor: seq<string>)
    requires forall k :: 0 <= k < |sorted| ==> sorted[k].id in keys
    ensures var g := PickGreedily(keys, sorted, toColor);
            forall id :: id in Ids(sorted) ==> id in g || Dominated(g, id)
  {
    if sorted != [] {
      var region := sorted[0].id;
      var g := PickGreedily(keys, sorted, toColor);
      assert Ids(sorted) == [region] + Ids(sorted[1..]);
      if exists n :: n in Neighbours(keys, region) && n in toColor {
        PickGreedilyMaximal(keys, sorted[1..], toColor);
        PickGreedilyShape(keys, sorted[1..], toColor);
        var n :| n in Neighbours(keys, region) && n in toColor;
        assert n in g by {
          var k :| 0 <= k < |toColor| && toColor[k] == n;
          assert g[..|toColor|][k] == n;
        }
      } else {
        PickGreedilyMaximal(keys, sorted[1..], toColor + [region]);
        PickGreedilyShape(keys, sorted[1..], toColor + [region]);
        assert g[..|toColor| + 1][|toColor|] == region;
      }
    }
  }

  /** The ids after the first of a list of regions with distinct ids are distinct, and differ from the first. */
  lemma DistinctIdsTail(sorted: seq<Region>)
    requires sorted != [] && Distinct(Ids(sorted))
    ensures Distinct(Ids(sorted[1..])) && sorted[0].id !in Ids(sorted[1..])
    ensures forall k :: 0 <= k < |sorted| - 1 ==> sorted[1..][k].id != sorted[0].id
  {
    IdsCons(sorted[0], sorted[1..]);
    assert sorted == [sorted[0]] + sorted[1..];
    DistinctTail(Ids(sorted));
    forall k | 0 <= k < |sorted| - 1 ensures sorted[1..][k].id != sorted[0].id {
      assert Ids(sorted[1..])[k] == sorted[1..][k].id;
    }
  }

  lemma {:induction false} SumGreedilyIsAreaOfPick(keys: seq<string>, sorted: seq<Region>, toColor: seq<string>, totalArea: real)
    requires Distinct(Ids(sorted))
    requires forall k :: 0 <= k < |sorted| ==> sorted[k].id !in toColor
    ensures SumGreedily(keys, sorted, (set id | id in toColor), totalArea)
            == totalArea + AreaOf(sorted, PickGreedily(keys, sorted, toColor))
  {
    if sorted != [] {
      var region := sorted[0];
      var rest := sorted[1..];
      var colored := set id | id in toColor;
      assert (exists n :: n in Neighbours(keys, region.id) && n in colored)
         <==> (exists n :: n in Neighbours(keys, region.id) && n in toColor);
      DistinctIdsTail(sorted);
      if exists n :: n in Neighbours(keys, region.id) && n in toColor {
        SumGreedilyIsAreaOfPick(keys, rest, toColor, totalArea);
        SkippedRegionAddsNothing(keys, region, rest, toColor);
      } else {
        var next := toColor + [region.id];
        assert (set id | id in next) == colored + {region.id};
        SumGreedilyIsAreaOfPick(keys, rest, next, totalArea + region.area);
        TakenRegionAddsItsArea(keys, region, rest, next);
      }
    }
  }

  /** A region the pass skips is not among the ids picked from the remaining regions. */
  lemma SkippedRegionAddsNothing(keys: seq<string>, region: Region, rest: seq<Region>, toColor: seq<string>)
    requires region.id !in toColor && region.id !in Ids(rest)
    ensures AreaOf([region] + rest, PickGreedily(keys, rest, toColor)) == AreaOf(rest, PickGreedily(keys, rest, toColor))
  {
    PickGreedilyShape(keys, rest, toColor);
    AreaOfCons(region, rest, PickGreedily(keys, rest, toColor));
  }

  /** A region the pass takes is among the ids picked, so its area counts once. */
  lemma TakenRegionAddsItsArea(keys: seq<string>, region: Region, rest: seq<Region>, next: seq<string>)
    requires |next| > 0 && next[|next| - 1] == region.id
    ensures AreaOf([region] + rest, PickGreedily(keys, rest, next)) == region.area + AreaOf(rest, PickGreedily(keys, rest, next))
  {
    PickGreedilyShape(keys, rest, next);
    var g := PickGreedily(keys, rest, next);
    assert g[..|next|][|next| - 1] == region.id;
    AreaOfCons(region, rest, g);
  }

  lemma {:induction false} AreaOfInsert(x: Region, s: seq<Region>, ids: seq<string>)
    requires ByDescendingArea(s)
    ensures AreaOf(InsertByArea(x, s), ids) == AreaOf([x] + s, ids)
  {
    if s != [] && s[0].area > x.area {
      AreaOfInsert(x, s[1..], ids);
      assert ([x] + s)[1..] == s;
      assert ([x] + s[1..])[1..] == s[1..];
    }
  }

  /** Sorting does not change the total area of any set of ids. */
  lemma {:induction false} AreaOfSort(regions: seq<Region>, ids: seq<string>)
    ensures AreaOf(SortByArea(regions), ids) == AreaOf(regions, ids)
  {
    if regions != [] {
      AreaOfSort(regions[1..], ids);
      AreaOfInsert(regions[0], SortByArea(regions[1..]), ids);
      assert ([regions[0]] + SortByArea(regions[1..]))[1..] == SortByArea(regions[1..]);
    }
  }

  /** Every id of a permutation `s` of the ids of `regions` is an id of `regions`, and the other way round. */
  lemma PermutedIds(s: seq<Region>, regions: seq<Region>)
    requires multiset(Ids(s)) == multiset(Ids(regions))
    ensures forall k :: 0 <= k < |s| ==> s[k].id in Ids(regions)
    ensures forall id :: id in Ids(regions) ==> id in Ids(s)
  {
    forall k | 0 <= k < |s| ensures s[k].id in Ids(regions) {
      assert Ids(s)[k] == s[k].id;
      assert s[k].id in multiset(Ids(s));
    }
    forall id | id in Ids(regions) ensures id in Ids(s) {
      assert id in multiset(Ids(regions));
    }
  }

  /** The facts about the sorted order that the greedy lemmas need. */
  lemma SortedKeys(regions: seq<Region>)
    ensures var sorted := SortByArea(regions);
            && (forall k :: 0 <= k < |sorted| ==> sorted[k].id in Ids(regions))
            && (forall id :: id in Ids(regions) ==> id in Ids(sorted))
            && (Distinct(Ids(regions)) ==> Distinct(Ids(sorted)))
  {
    var sorted := SortByArea(regions);
    SortByAreaIds(regions);
    PermutedIds(sorted, regions);
    if Distinct(Ids(regions)) {
      DistinctPermutation(Ids(regions), Ids(sorted));
    }
  }

  /**
   * `findOptimalColoring` returns an independent set of the regions: only
   * region ids, none twice, and no two different ones sharing a label.
   */
  lemma FindOptimalColoringIsIndependent(regions: seq<Region>)
    requires Distinct(Ids(regions))
    ensures var chosen := FindOptimalColoring(regions);
            && (forall id :: id in chosen ==> id in Ids(regions))
            && Distinct(chosen)
            && Independent(chosen)
  {
    var keys := Ids(regions);
    var sorted := SortByArea(regions);
    SortedKeys(regions);
    PickGreedilyShape(keys, sorted, []);
    PickGreedilyIndependent(keys, sorted, []);
    PickGreedilyDistinct(keys, sorted, []);
  }

  /** The set is maximal: every region left out shares a label with a region taken. */
  lemma FindOptimalColoringIsMaximal(regions: seq<Region>)
    ensures var chosen := FindOptimalColoring(regions);
            forall r :: r in regions && r.id !in chosen ==> Dominated(chosen, r.id)
  {
    var keys := Ids(regions);
    var sorted := SortByArea(regions);
    var chosen := FindOptimalColoring(regions);
    SortByAreaIds(regions);
    PermutedIds(sorted, regions);
    PickGreedilyMaximal(keys, sorted, []);
    forall r | r in regions && r.id !in chosen
      ensures Dominated(chosen, r.id)
    {
      var k :| 0 <= k < |regions| && regions[k] == r;
      assert keys[k] == r.id;
    }
  }

  /** When nothing is taken yet, the first region of the order is taken. */
  lemma PickGreedilyFirst(keys: seq<string>, sorted: seq<Region>)
    requires |sorted| > 0
    ensures var g := PickGreedily(keys, sorted, []);
            |g| > 0 && g[0] == sorted[0].id
  {
    var region := sorted[0].id;
    assert !exists n :: n in Neighbours(keys, region) && n in [];
    assert [] + [region] == [region];
    assert PickGreedily(keys, sorted, []) == PickGreedily(keys, sorted[1..], [region]);
    PickGreedilyShape(keys, sorted[1..], [region]);
  }

  /** A region of largest area is always taken, and taken first. */
  lemma FindOptimalColoringTakesLargestFirst(regions: seq<Region>)
    requires |regions| > 0
    ensures var chosen := FindOptimalColoring(regions);
            var top := SortByArea(regions)[0];
            && top in regions
            && (forall r :: r in regions ==> r.area <= top.area)
            && |chosen| > 0 && chosen[0] == top.id
  {
    SortByAreaHead(regions);
    PickGreedilyFirst(Ids(regions), SortByArea(regions));
  }

  lemma {:induction false} PickGreedilyDistinct(keys: seq<string>, sorted: seq<Region>, toColor: seq<string>)
    requires Distinct(Ids(sorted)) && Distinct(toColor)
    requires forall k :: 0 <= k < |sorted| ==> sorted[k].id !in toColor
    ensures Distinct(PickGreedily(keys, sorted, toColor))
  {
    if sorted != [] {
      var region := sorted[0].id;
      var rest := sorted[1..];
      DistinctIdsTail(sorted);
      if exists n :: n in Neighbours(keys, region) && n in toColor {
        PickGreedilyDistinct(keys, rest, toColor);
      } else {
        DistinctConcat(toColor, [region]);
        PickGreedilyDistinct(keys, rest, toColor + [region]);
      }
    }
  }

  /**
   * `calculateMaxPossibleArea` returns exactly the total area of the regions
   * that `findOptimalColoring` picks for the same regions.
   */
  lemma MaxPossibleAreaIsAreaOfOptimalColoring(regions: seq<Region>)
    requires Distinct(Ids(regions))
    ensures CalculateMaxPossibleArea(regions) == AreaOf(regions, FindOptimalColoring(regions))
  {
    var sorted := SortByArea(regions);
    SortedKeys(regions);
    assert (set id: string | id in []) == {};
    SumGreedilyIsAreaOfPick(Ids(regions), sorted, [], 0.0);
    AreaOfSort(regions, FindOptimalColoring(regions));
  }

  /** A strictly largest region that shares a label with every region is taken alone. */
  lemma DominantRegionIsTakenAlone(regions: seq<Region>, top: Region)
    requires Distinct(Ids(regions)) && top in regions
    requires forall r :: r in regions && r != top ==> r.area < top.area
    requires forall r :: r in regions ==> AreRegionsAdjacent(top.id, r.id)
    ensures FindOptimalColoring(regions) == [top.id]
  {
    var ids := Ids(regions);
    var chosen := FindOptimalColoring(regions);
    FindOptimalColoringIsIndependent(regions);
    FindOptimalColoringTakesLargestFirst(regions);
    assert SortByArea(regions)[0] == top;
    forall k | 0 <= k < |chosen|
      ensures chosen[k] == top.id
    {
      assert chosen[k] in chosen;
      var j :| 0 <= j < |ids| && ids[j] == chosen[k];
      assert AreRegionsAdjacent(top.id, regions[j].id);
    }
    DistinctConstant(chosen, top.id);
  }

  /** The seven regions of three sets, in the order `generateRegions` creates them, with the given areas. */
  function ThreeSetRegions(a: real, b: real, c: real, ab: real, ac: real, bc: real, abc: real): seq<Region>
  {
    [Region("A", a), Region("B", b), Region("C", c), Region("AB", ab), Region("AC", ac), Region("BC", bc), Region("ABC", abc)]
  }

  lemma ThreeSetIds(a: real, b: real, c: real, ab: real, ac: real, bc: real, abc: real)
    ensures Distinct(Ids(ThreeSetRegions(a, b, c, ab, ac, bc, abc)))
  {
    assert Ids(ThreeSetRegions(a, b, c, ab, ac, bc, abc)) == ["A", "B", "C", "AB", "AC", "BC", "ABC"];
    ThreeSetIdsDistinct();
  }

  /** Every region of three sets shares a label with the region of all three. */
  lemma ThreeSetAllAdjacent(a: real, b: real, c: real, ab: real, ac: real, bc: real, abc: real)
    ensures forall r :: r in ThreeSetRegions(a, b, c, ab, ac, bc, abc) ==> AreRegionsAdjacent("ABC", r.id)
  {
    forall r | r in ThreeSetRegions(a, b, c, ab, ac, bc, abc)
      ensures AreRegionsAdjacent("ABC", r.id)
    {
      assert r.id[0] in "ABC";
    }
  }

  lemma ThreeSetLargest(a: real, b: real, c: real, ab: real, ac: real, bc: real, abc: real)
    requires a < abc && b < abc && c < abc && ab < abc && ac < abc && bc < abc
    ensures var regions := ThreeSetRegions(a, b, c, ab, ac, bc, abc);
            Region("ABC", abc) in regions && forall r :: r in regions && r != Region("ABC", abc) ==> r.area < abc
  {
    assert ThreeSetRegions(a, b, c, ab, ac, bc, abc)[6] == Region("ABC", abc);
  }

  /** When the region of all three sets is strictly the largest, the greedy pass takes it alone. */
  lemma SharedRegionTakenAlone(a: real, b: real, c: real, ab: real, ac: real, bc: real, abc: real)
    requires a < abc && b < abc && c < abc && ab < abc && ac < abc && bc < abc
    ensures FindOptimalColoring(ThreeSetRegions(a, b, c, ab, ac, bc, abc)) == ["ABC"]
  {
    ThreeSetIds(a, b, c, ab, ac, bc, abc);
    ThreeSetAllAdjacent(a, b, c, ab, ac, bc, abc);
    ThreeSetLargest(a, b, c, ab, ac, bc, abc);
    DominantRegionIsTakenAlone(ThreeSetRegions(a, b, c, ab, ac, bc, abc), Region("ABC", abc));
  }

  lemma AreaOfCons(h: Region, t: seq<Region>, ids: seq<string>)
    ensures AreaOf([h] + t, ids) == (if h.id in ids then h.area else 0.0) + AreaOf(t, ids)
  {
    assert ([h] + t)[1..] == t;
  }

  /** The ids of the three-set regions are all different. */
  lemma ThreeSetIdsDistinct()
    ensures Distinct(["A", "B", "C", "AB", "AC", "BC", "ABC"])
  {
    var ids := ["A", "B", "C", "AB", "AC", "BC", "ABC"];
    forall i, j | 0 <= i < j < |ids|
      ensures ids[i] != ids[j]
    {
      if |ids[i]| == |ids[j]| {
        assert ids[i][0] != ids[j][0] || ids[i][|ids[i]| - 1] != ids[j][|ids[j]| - 1];
      }
    }
  }

  /** The seven regions as a chain of one-region prefixes, for computing `AreaOf` step by step. */
  lemma ThreeSetChain(a: real, b: real, c: real, ab: real, ac: real, bc: real, abc: real, ids: seq<string>)
    ensures AreaOf(ThreeSetRegions(a, b, c, ab, ac, bc, abc), ids) ==
            (if "A" in ids then a else 0.0) + (if "B" in ids then b else 0.0) + (if "C" in ids then c else 0.0)
            + (if "AB" in ids then ab else 0.0) + (if "AC" in ids then ac else 0.0) + (if "BC" in ids then bc else 0.0)
            + (if "ABC" in ids then abc else 0.0)
  {
    var t6 := [Region("ABC", abc)];
    var t5 := [Region("BC", bc)] + t6;
    var t4 := [Region("AC", ac)] + t5;
    var t3 := [Region("AB", ab)] + t4;
    var t2 := [Region("C", c)] + t3;
    var t1 := [Region("B", b)] + t2;
    var t0 := [Region("A", a)] + t1;
    assert t0 == ThreeSetRegions(a, b, c, ab, ac, bc, abc);
    AreaOfCons(Region("ABC", abc), [], ids);
    AreaOfCons(Region("BC", bc), t6, ids);
    AreaOfCons(Region("AC", ac), t5, ids);
    AreaOfCons(Region("AB", ab), t4, ids);
    AreaOfCons(Region("C", c), t3, ids);
    AreaOfCons(Region("B", b), t2, ids);
    AreaOfCons(Region("A", a), t1, ids);
  }

  lemma ThreeSetAreas(a: real, b: real, c: real, ab: real, ac: real, bc: real, abc: real)
    ensures AreaOf(ThreeSetRegions(a, b, c, ab, ac, bc, abc), ["ABC"]) == abc
    ensures AreaOf(ThreeSetRegions(a, b, c, ab, ac, bc, abc), ["A", "B", "C"]) == a + b + c
  {
    ThreeSetChain(a, b, c, ab, ac, bc, abc, ["ABC"]);
    ThreeSetChain(a, b, c, ab, ac, bc, abc, ["A", "B", "C"]);
    ThreeSetIdsDistinct();
    assert "ABC" !in ["A", "B", "C"];
  }

  /**
   * The greedy pass is a heuristic, not a maximum: when the region shared by
   * all three sets is strictly the largest but the three single-set regions
   * together are larger still (for instance raw areas 0.4 for each of A, B
   * and C, 0.1 for each pair and 0.59 for ABC, all within the range
   * `generateRegions` draws from, before normalising), it takes the shared
   * region alone, although the three single-set regions are independent and
   * cover more area.
   */
  lemma GreedyIsNotAlwaysLargest(a: real, b: real, c: real, ab: real, ac: real, bc: real, abc: real)
    requires a < abc && b < abc && c < abc && ab < abc && ac < abc && bc < abc
    requires abc < a + b + c
    ensures var regions := ThreeSetRegions(a, b, c, ab, ac, bc, abc);
            && FindOptimalColoring(regions) == ["ABC"]
            && Independent(["A", "B", "C"])
            && AreaOf(regions, FindOptimalColoring(regions)) < AreaOf(regions, ["A", "B", "C"])
  {
    SharedRegionTakenAlone(a, b, c, ab, ac, bc, abc);
    ThreeSetAreas(a, b, c, ab, ac, bc, abc);
    assert Independent(["A", "B", "C"]) by {
      SingleSetsIndependent();
    }
  }

  lemma SingleSetsIndependent()
    ensures Independent(["A", "B", "C"])
  {
  }

  // ---------------------------------------------------------------------------
  // `showSolution`

  datatype Colour = Red | Blue | Green | Yellow

  /** The order in which `showSolution` hands out the colours. */
  const ColourPriority: seq<Colour> := [Red, Blue, Green, Yellow]

  /** `delete remainingRegions[regionId]` for every id of `solution`; the other entries keep their order. */
  function Without(regions: seq<Region>, solution: seq<string>): (r: seq<Region>)
    ensures forall x :: x in r <==> x in regions && x.id !in solution
  {
    if regions == [] then []
    else (if regions[0].id in solution then [] else [regions[0]]) + Without(regions[1..], solution)
  }

  /** The `solution` of each round of the `colorPriority.forEach` loop, one round per colour. */
  function SolutionSteps(remaining: seq<Region>, colours: seq<Colour>): (steps: seq<seq<string>>)
    ensures |steps| == |colours|
    decreases |colours|
  {
    if colours == [] then []
    else
      var solution := FindOptimalColoring(remaining);
      [solution] + SolutionSteps(Without(remaining, solution), colours[1..])
  }

  /** `this.regions[regionId].color = color` for the ids of each round, in round order. */
  function Paint(colours: seq<Colour>, steps: seq<seq<string>>, painted: map<string, Colour>): map<string, Colour>
    requires |steps| == |colours|
  {
    if colours == [] then painted
    else Paint(colours[1..], steps[1..], painted + map id | id in steps[0] :: colours[0])
  }

  /** `showSolution()`: starting with no colours, the colour each region ends up with. */
  function ShowSolution(regions: seq<Region>): map<string, Colour>
  {
    Paint(ColourPriority, SolutionSteps(regions, ColourPriority), map[])
  }

  /** No id is taken in two rounds. */
  predicate RoundsDisjoint(steps: seq<seq<string>>) {
    forall k, l, id :: 0 <= k < l < |steps| && id in steps[k] ==> id !in steps[l]
  }

  /** Every round takes only ids from `ids`. */
  predicate RoundsWithin(steps: seq<seq<string>>, ids: seq<string>) {
    forall k, id :: 0 <= k < |steps| && id in steps[k] ==> id in ids
  }

  predicate RoundsIndependent(steps: seq<seq<string>>) {
    forall k :: 0 <= k < |steps| ==> Independent(steps[k])
  }

  /** Removing a round's ids leaves exactly the regions whose ids were not taken. */
  lemma WithoutIds(regions: seq<Region>, solution: seq<string>)
    ensures forall id :: id in Ids(Without(regions, solution)) ==> id in Ids(regions) && id !in solution
  {
    var rest := Without(regions, solution);
    forall id | id in Ids(rest) ensures id in Ids(regions) && id !in solution {
      var k :| 0 <= k < |rest| && Ids(rest)[k] == id;
      assert rest[k] in regions;
      var j :| 0 <= j < |regions| && regions[j] == rest[k];
      assert Ids(regions)[j] == id;
    }
  }

  lemma {:induction false} WithoutDistinct(regions: seq<Region>, solution: seq<string>)
    requires Distinct(Ids(regions))
    ensures Distinct(Ids(Without(regions, solution)))
  {
    if regions != [] {
      var rest := regions[1..];
      IdsCons(regions[0], rest);
      assert regions == [regions[0]] + rest;
      DistinctTail(Ids(regions));
      WithoutDistinct(rest, solution);
      var w := Without(rest, solution);
      if regions[0].id !in solution {
        WithoutIds(rest, solution);
        IdsCons(regions[0], w);
        DistinctConcat([regions[0].id], Ids(w));
      }
    }
  }

  /** Putting a first round in front of later rounds that avoid its ids keeps the rounds apart. */
  lemma RoundsCons(first: seq<string>, later: seq<seq<string>>, ids: seq<string>, restIds: seq<string>)
    requires (forall id :: id in first ==> id in ids) && Independent(first)
    requires forall id :: id in restIds ==> id in ids && id !in first
    requires RoundsWithin(later, restIds) && RoundsDisjoint(later) && RoundsIndependent(later)
    ensures var steps := [first] + later;
            RoundsWithin(steps, ids) && RoundsDisjoint(steps) && RoundsIndependent(steps)
  {
    var steps := [first] + later;
    forall k, id | 0 <= k < |steps| && id in steps[k]
      ensures id in ids
    {
      if k > 0 {
        assert steps[k] == later[k - 1];
      }
    }
    forall k, l, id | 0 <= k < l < |steps| && id in steps[k]
      ensures id !in steps[l]
    {
      assert steps[l] == later[l - 1];
      if k > 0 {
        assert steps[k] == later[k - 1];
      }
    }
    forall k | 0 <= k < |steps|
      ensures Independent(steps[k])
    {
      if k > 0 {
        assert steps[k] == later[k - 1];
      }
    }
  }

  /** The rounds of `showSolution` take region ids only, each id at most once, and each round is independent. */
  lemma {:induction false} StepsShape(remaining: seq<Region>, colours: seq<Colour>)
    requires Distinct(Ids(remaining))
    ensures var steps := SolutionSteps(remaining, colours);
            RoundsWithin(steps, Ids(remaining)) && RoundsDisjoint(steps) && RoundsIndependent(steps)
    decreases |colours|
  {
    if colours != [] {
      var solution := FindOptimalColoring(remaining);
      var rest := Without(remaining, solution);
      FindOptimalColoringIsIndependent(remaining);
      WithoutIds(remaining, solution);
      WithoutDistinct(remaining, solution);
      StepsShape(rest, colours[1..]);
      var later := SolutionSteps(rest, colours[1..]);
      assert SolutionSteps(remaining, colours) == [solution] + later;
      RoundsCons(solution, later, Ids(remaining), Ids(rest));
    }
  }

  lemma {:induction false} PaintRounds(colours: seq<Colour>, steps: seq<seq<string>>, painted: map<string, Colour>)
    requires |steps| == |colours|
    requires RoundsDisjoint(steps)
    ensures var m := Paint(colours, steps, painted);
            && (forall k, id :: 0 <= k < |steps| && id in steps[k] ==> id in m && m[id] == colours[k])
            && (forall id :: id in m ==> id in painted || exists k :: 0 <= k < |steps| && id in steps[k])
            && (forall id :: id in painted && (forall k :: 0 <= k < |steps| ==> id !in steps[k]) ==>
                  id in m && m[id] == painted[id])
  {
    if colours != [] {
      var next := painted + map id | id in steps[0] :: colours[0];
      var later := steps[1..];
      assert RoundsDisjoint(later) by {
        forall k, l, id | 0 <= k < l < |later| && id in later[k] ensures id !in later[l] {
          assert later[k] == steps[k + 1] && later[l] == steps[l + 1];
        }
      }
      PaintRounds(colours[1..], later, next);
      var m := Paint(colours, steps, painted);
      assert m == Paint(colours[1..], later, next);
      forall k, id | 0 <= k < |steps| && id in steps[k]
        ensures id in m && m[id] == colours[k]
      {
        if k == 0 {
          assert id in next && next[id] == colours[0];
          forall l | 0 <= l < |later| ensures id !in later[l] {
            assert later[l] == steps[l + 1];
          }
          assert id in m && m[id] == next[id];
        } else {
          assert later[k - 1] == steps[k];
          assert id in m && m[id] == colours[1..][k - 1];
        }
      }
      forall id | id in m && id !in painted
        ensures exists k :: 0 <= k < |steps| && id in steps[k]
      {
        if id !in steps[0] {
          assert id !in next;
          var l :| 0 <= l < |later| && id in later[l];
          assert steps[l + 1] == later[l];
        }
      }
      forall id | id in painted && (forall k :: 0 <= k < |steps| ==> id !in steps[k])
        ensures id in m && m[id] == painted[id]
      {
        assert id !in steps[0];
        assert id in next && next[id] == painted[id];
        forall l | 0 <= l < |later| ensures id !in later[l] {
          assert later[l] == steps[l + 1];
        }
      }
    }
  }

  /** With one distinct colour per round, two ids painted the same colour come from the same round. */
  lemma PaintProper(colours: seq<Colour>, steps: seq<seq<string>>)
    requires |steps| == |colours| && Distinct(colours)
    requires RoundsDisjoint(steps) && RoundsIndependent(steps)
    ensures var m := Paint(colours, steps, map[]);
            forall a, b :: a in m && b in m && a != b && m[a] == m[b] ==> !AreRegionsAdjacent(a, b)
  {
    var m := Paint(colours, steps, map[]);
    forall a, b | a in m && b in m && a != b && m[a] == m[b]
      ensures !AreRegionsAdjacent(a, b)
    {
      var k := PaintedIn(colours, steps, a);
      var l := PaintedIn(colours, steps, b);
      assert colours[k] == colours[l];
      assert k == l;
      SameRoundApart(steps[k], a, b);
    }
  }

  /** Each id painted from no colours at all was painted in some round, with that round's colour. */
  lemma PaintedIn(colours: seq<Colour>, steps: seq<seq<string>>, id: string) returns (k: nat)
    requires |steps| == |colours| && RoundsDisjoint(steps)
    requires id in Paint(colours, steps, map[])
    ensures k < |steps| && id in steps[k] && Paint(colours, steps, map[])[id] == colours[k]
  {
    PaintRounds(colours, steps, map[]);
    k :| 0 <= k < |steps| && id in steps[k];
  }

  /** Two different ids of one independent round do not share a label. */
  lemma SameRoundApart(round: seq<string>, a: string, b: string)
    requires Independent(round) && a in round && b in round && a != b
    ensures !AreRegionsAdjacent(a, b)
  {
    var i :| 0 <= i < |round| && round[i] == a;
    var j :| 0 <= j < |round| && round[j] == b;
  }

  /**
   * The colouring `m` painted from `steps`, one colour of `colours` per round:
   * it colours ids of `ids` only, every id of round k gets colour k, and no
   * two different ids of the same colour share a label.
   */
  ghost predicate ProperlyPainted(m: map<string, Colour>, steps: seq<seq<string>>, ids: seq<string>, colours: seq<Colour>)
    requires |steps| == |colours|
  {
    && (forall id :: id in m ==> id in ids)
    && (forall k, id :: 0 <= k < |steps| && id in steps[k] ==> id in m && m[id] == colours[k])
    && (forall a, b :: a in m && b in m && a != b && m[a] == m[b] ==> !AreRegionsAdjacent(a, b))
  }

  /** Painting rounds that take ids of `ids` only, disjoint and each independent, with one distinct colour per round. */
  lemma PaintFacts(ids: seq<string>, colours: seq<Colour>, steps: seq<seq<string>>)
    requires |steps| == |colours| && Distinct(colours)
    requires RoundsWithin(steps, ids) && RoundsDisjoint(steps) && RoundsIndependent(steps)
    ensures ProperlyPainted(Paint(colours, steps, map[]), steps, ids, colours)
  {
    var m := Paint(colours, steps, map[]);
    PaintRounds(colours, steps, map[]);
    PaintProper(colours, steps);
    forall id | id in m
      ensures id in ids
    {
      var k :| 0 <= k < |steps| && id in steps[k];
    }
  }

  /** The rounds of `showSolution` for any list of distinct colours. */
  lemma PaintSolution(regions: seq<Region>, colours: seq<Colour>)
    requires Distinct(Ids(regions)) && Distinct(colours)
    ensures var steps := SolutionSteps(regions, colours);
            && (|colours| > 0 ==> steps[0] == FindOptimalColoring(regions))
            && RoundsDisjoint(steps)
            && ProperlyPainted(Paint(colours, steps, map[]), steps, Ids(regions), colours)
  {
    StepsShape(regions, colours);
    PaintFacts(Ids(regions), colours, SolutionSteps(regions, colours));
  }

  /**
   * `showSolution` paints with the four colours of `colorPriority` in order:
   * its first round is `findOptimalColoring` of all regions, the rounds are
   * pairwise disjoint so each region gets at most one colour, every id of
   * round k gets colour k, only region ids are coloured, and no two different
   * regions of the same colour share a label.
   */
  lemma ShowSolutionIsProperPartialColouring(regions: seq<Region>)
    requires Distinct(Ids(regions))
    ensures var steps := SolutionSteps(regions, ColourPriority);
            && steps[0] == FindOptimalColoring(regions)
            && RoundsDisjoint(steps)
            && ProperlyPainted(ShowSolution(regions), steps, Ids(regions), ColourPriority)
  {
    ColourPriorityDistinct();
    PaintSolution(regions, ColourPriority);
  }

  lemma ColourPriorityDistinct()
    ensures |ColourPriority| == 4 && Distinct(ColourPriority)
  {
  }
}

=== FILE: combinations.dfy ===
/**
 * `getCombinations(arr, len)` of venn.js: the nested `combine(current, start)`
 * recursion that lists every `len`-element selection of `arr`, keeping the
 * elements in their original order.
 *
 * The results are first described on index sequences (the combinations of
 * `Range(n) = [0, 1, ..., n-1]`), where "in original order" is "strictly
 * increasing"; `CombinePicks` then carries that description to any `arr`.
 */
module Combinations {
  import opened Seqs

  /** `combine(current, start)`: emit `current` once it holds `len` elements, otherwise try every extension. */
  function Combine<T>(arr: seq<T>, len: nat, current: seq<T>, start: nat): seq<seq<T>>
    requires start <= |arr|
    decreases |arr| - start, 1
  {
    if |current| == len then [current] else Extend(arr, len, current, start)
  }

  /** The loop `for (let i = start; i < arr.length; i++)` inside `combine`, from index `i` onwards. */
  function Extend<T>(arr: seq<T>, len: nat, current: seq<T>, i: nat): seq<seq<T>>
    requires i <= |arr|
    decreases |arr| - i, 0
  {
    if i == |arr| then []
    else Combine(arr, len, current + [arr[i]], i + 1) + Extend(arr, len, current, i + 1)
  }

  /** `getCombinations(arr, len)`: every selection has exactly `len` elements. */
  function GetCombinations<T>(arr: seq<T>, len: nat): (r: seq<seq<T>>)
    ensures forall c :: c in r ==> |c| == len
  {
    CombineLengths(arr, len, [], 0);
    Combine(arr, len, [], 0)
  }

  lemma {:induction false} CombineLengths<T>(arr: seq<T>, len: nat, current: seq<T>, start: nat)
    requires start <= |arr| && |current| <= len
    ensures forall c :: c in Combine(arr, len, current, start) ==> |c| == len
    decreases |arr| - start, 1
  {
    if |current| != len {
      ExtendLengths(arr, len, current, start);
    }
  }

  lemma {:induction false} ExtendLengths<T>(arr: seq<T>, len: nat, current: seq<T>, i: nat)
    requires i <= |arr| && |current| < len
    ensures forall c :: c in Extend(arr, len, current, i) ==> |c| == len
    decreases |arr| - i, 0
  {
    if i < |arr| {
      CombineLengths(arr, len, current + [arr[i]], i + 1);
      ExtendLengths(arr, len, current, i + 1);
    }
  }

  // ---------------------------------------------------------------------------
  // Counting: C(n, k)

  function Binomial(n: nat, k: nat): nat
  {
    if k == 0 then 1
    else if n == 0 then 0
    else Binomial(n - 1, k - 1) + Binomial(n - 1, k)
  }

  /** `combine(current, start)` produces C(n - start, len - |current|) selections. */
  lemma {:induction false} CombineCount<T>(arr: seq<T>, len: nat, current: seq<T>, start: nat)
    requires start <= |arr| && |current| <= len
    ensures |Combine(arr, len, current, start)| == Binomial(|arr| - start, len - |current|)
    decreases |arr| - start, 1
  {
    if |current| != len {
      ExtendCount(arr, len, current, start);
    }
  }

  lemma {:induction false} ExtendCount<T>(arr: seq<T>, len: nat, current: seq<T>, i: nat)
    requires i <= |arr| && |current| < len
    ensures |Extend(arr, len, current, i)| == Binomial(|arr| - i, len - |current|)
    decreases |arr| - i, 0
  {
    if i < |arr| {
      CombineCount(arr, len, current + [arr[i]], i + 1);
      ExtendCount(arr, len, current, i + 1);
    }
  }

  // ---------------------------------------------------------------------------
  // Index sequences

  /** The indices `[0, 1, ..., n-1]`. */
  function Range(n: nat): (r: seq<int>)
    ensures |r| == n && forall i :: 0 <= i < n ==> r[i] == i
  {
    seq(n, i => i)
  }

  predicate Increasing(s: seq<int>) {
    forall i, j :: 0 <= i < j < |s| ==> s[i] < s[j]
  }

  predicate InRange(s: seq<int>, n: int) {
    forall k :: 0 <= k < |s| ==> 0 <= s[k] < n
  }

  /** An index selection of size `len` from `0..n-1`, listed in increasing order. */
  predicate Selection(s: seq<int>, n: int, len: int) {
    |s| == len && Increasing(s) && InRange(s, n)
  }

  /** `r` is a selection that `combine(current, start)` may complete `current` into. */
  predicate Completes(r: seq<int>, n: int, len: int, current: seq<int>, start: int) {
    && |current| <= |r| == len
    && r[..|current|] == current
    && Increasing(r)
    && forall k :: |current| <= k < |r| ==> start <= r[k] < n
  }

  /** What every call of `combine` in the recursion knows about `current`. */
  predicate Prefix(current: seq<int>, start: int) {
    Increasing(current) && InRange(current, start)
  }

  lemma {:induction false} CombineSound(n: nat, len: nat, current: seq<int>, start: nat)
    requires start <= n && |current| <= len && Prefix(current, start)
    ensures forall r :: r in Combine(Range(n), len, current, start) ==> Completes(r, n, len, current, start)
    decreases n - start, 1
  {
    if |current| != len {
      ExtendSound(n, len, current, start);
    }
  }

  lemma {:induction false} ExtendSound(n: nat, len: nat, current: seq<int>, i: nat)
    requires i <= n && |current| < len && Prefix(current, i)
    ensures forall r :: r in Extend(Range(n), len, current, i) ==> Completes(r, n, len, current, i)
    decreases n - i, 0
  {
    if i < n {
      var next := current + [Range(n)[i]];
      assert next == current + [i];
      CombineSound(n, len, next, i + 1);
      ExtendSound(n, len, current, i + 1);
      forall r | r in Combine(Range(n), len, next, i + 1)
        ensures Completes(r, n, len, current, i)
      {
        assert r[..|next|][..|current|] == r[..|current|];
        assert r[|current|] == r[..|next|][|current|] == i;
      }
    }
  }

  lemma {:induction false} CombineComplete(n: nat, len: nat, current: seq<int>, start: nat, r: seq<int>)
    requires start <= n && |current| <= len && Prefix(current, start)
    requires Completes(r, n, len, current, start)
    ensures r in Combine(Range(n), len, current, start)
    decreases n - start, 1
  {
    if |current| == len {
      assert r == r[..|current|];
    } else {
      ExtendComplete(n, len, current, start, r);
    }
  }

  lemma {:induction false} ExtendComplete(n: nat, len: nat, current: seq<int>, i: nat, r: seq<int>)
    requires i <= n && |current| < len && Prefix(current, i)
    requires Completes(r, n, len, current, i)
    ensures r in Extend(Range(n), len, current, i)
    decreases n - i, 0
  {
    var k := |current|;
    assert i <= r[k] < n;
    if r[k] == i {
      var next := current + [i];
      assert Range(n)[i] == i;
      assert r[..k + 1] == r[..k] + [r[k]];
      CombineComplete(n, len, next, i + 1, r);
    } else {
      ExtendComplete(n, len, current, i + 1, r);
    }
  }

  // ---------------------------------------------------------------------------
  // Lexicographic order of the index selections

  /** `a` comes strictly before `b` in lexicographic order. */
  predicate Lex(a: seq<int>, b: seq<int>) {
    |a| > 0 && |b| > 0 && (a[0] < b[0] || (a[0] == b[0] && Lex(a[1..], b[1..])))
  }

  lemma {:induction false} LexAt(a: seq<int>, b: seq<int>, k: nat)
    requires k < |a| && k < |b| && a[..k] == b[..k] && a[k] < b[k]
    ensures Lex(a, b)
  {
    if k > 0 {
      assert a[0] == a[..k][0] == b[..k][0] == b[0];
      assert a[1..][..k - 1] == a[1..k] == a[..k][1..];
      assert b[1..][..k - 1] == b[1..k] == b[..k][1..];
      LexAt(a[1..], b[1..], k - 1);
    }
  }

  lemma {:induction false} LexIrreflexive(a: seq<int>)
    ensures !Lex(a, a)
  {
    if |a| > 0 {
      LexIrreflexive(a[1..]);
    }
  }

  predicate LexSorted(s: seq<seq<int>>) {
    forall p, q :: 0 <= p < q < |s| ==> Lex(s[p], s[q])
  }

  lemma {:induction false} CombineOrdered(n: nat, len: nat, current: seq<int>, start: nat)
    requires start <= n && |current| <= len && Prefix(current, start)
    ensures LexSorted(Combine(Range(n), len, current, start))
    decreases n - start, 1
  {
    if |current| != len {
      ExtendOrdered(n, len, current, start);
    }
  }

  lemma {:induction false} ExtendOrdered(n: nat, len: nat, current: seq<int>, i: nat)
    requires i <= n && |current| < len && Prefix(current, i)
    ensures LexSorted(Extend(Range(n), len, current, i))
    decreases n - i, 0
  {
    if i < n {
      var next := current + [i];
      assert Range(n)[i] == i;
      var first := Combine(Range(n), len, next, i + 1);
      var rest := Extend(Range(n), len, current, i + 1);
      CombineOrdered(n, len, next, i + 1);
      ExtendOrdered(n, len, current, i + 1);
      CombineSound(n, len, next, i + 1);
      ExtendSound(n, len, current, i + 1);
      var all := first + rest;
      forall p, q | 0 <= p < q < |all|
        ensures Lex(all[p], all[q])
      {
        if q < |first| {
          assert all[p] == first[p] && all[q] == first[q];
        } else if p >= |first| {
          assert all[p] == rest[p - |first|] && all[q] == rest[q - |first|];
        } else {
          var a, b := first[p], rest[q - |first|];
          assert all[p] == a && all[q] == b;
          assert a in first && b in rest;
          var k := |current|;
          assert a[..k] == a[..k + 1][..k] == current;
          assert a[k] == a[..k + 1][k] == i;
          LexAt(a, b, k);
        }
      }
    }
  }

  // ---------------------------------------------------------------------------
  // From indices to elements

  /** The elements of `arr` at the indices `idx`, in that order. */
  function Pick<T>(arr: seq<T>, idx: seq<int>): (r: seq<T>)
    requires InRange(idx, |arr|)
    ensures |r| == |idx| && forall k :: 0 <= k < |idx| ==> r[k] == arr[idx[k]]
  {
    seq(|idx|, k requires 0 <= k < |idx| => arr[idx[k]])
  }

  /**
   * Running `combine` on `arr` yields, position by position, `arr` picked at
   * the index selections that `combine` yields on `Range(|arr|)`.
   */
  lemma {:induction false} CombinePicks<T>(arr: seq<T>, len: nat, current: seq<int>, start: nat)
    requires start <= |arr| && |current| <= len && Prefix(current, start)
    ensures var idx := Combine(Range(|arr|), len, current, start);
            var els := Combine(arr, len, Pick(arr, current), start);
            |els| == |idx| && forall p :: 0 <= p < |idx| ==> InRange(idx[p], |arr|) && els[p] == Pick(arr, idx[p])
    decreases |arr| - start, 1
  {
    CombineSound(|arr|, len, current, start);
    if |current| != len {
      ExtendPicks(arr, len, current, start);
    }
  }

  lemma {:induction false} ExtendPicks<T>(arr: seq<T>, len: nat, current: seq<int>, i: nat)
    requires i <= |arr| && |current| < len && Prefix(current, i)
    ensures var idx := Extend(Range(|arr|), len, current, i);
            var els := Extend(arr, len, Pick(arr, current), i);
            |els| == |idx| && forall p :: 0 <= p < |idx| ==> InRange(idx[p], |arr|) && els[p] == Pick(arr, idx[p])
    decreases |arr| - i, 0
  {
    if i < |arr| {
      var n := |arr|;
      var next := current + [i];
      assert Range(n)[i] == i;
      assert Pick(arr, current) + [arr[i]] == Pick(arr, next);
      CombinePicks(arr, len, next, i + 1);
      ExtendPicks(arr, len, current, i + 1);
      var idx1 := Combine(Range(n), len, next, i + 1);
      var idx2 := Extend(Range(n), len, current, i + 1);
      var els1 := Combine(arr, len, Pick(arr, next), i + 1);
      var els2 := Extend(arr, len, Pick(arr, current), i + 1);
      forall p | 0 <= p < |idx1 + idx2|
        ensures InRange((idx1 + idx2)[p], n) && (els1 + els2)[p] == Pick(arr, (idx1 + idx2)[p])
      {
        if p < |idx1| {
          assert (idx1 + idx2)[p] == idx1[p] && (els1 + els2)[p] == els1[p];
        } else {
          assert (idx1 + idx2)[p] == idx2[p - |idx1|] && (els1 + els2)[p] == els2[p - |idx1|];
        }
      }
    }
  }

  // ---------------------------------------------------------------------------
  // The properties of getCombinations

  /**
   * `getCombinations(arr, len)` lists, in lexicographic order of their
   * indices, exactly the C(|arr|, len) selections of `len` elements of `arr`
   * taken at strictly increasing indices.
   */
  lemma CombinationsAreOrderedSelections<T>(arr: seq<T>, len: nat)
    ensures var idx := GetCombinations(Range(|arr|), len);
            var els := GetCombinations(arr, len);
            && |els| == |idx| == Binomial(|arr|, len)
            && (forall p :: 0 <= p < |idx| ==> Selection(idx[p], |arr|, len) && els[p] == Pick(arr, idx[p]))
            && LexSorted(idx)
            && (forall s :: Selection(s, |arr|, len) ==> s in idx)
  {
    var n := |arr|;
    assert Pick(arr, []) == [];
    CombinePicks(arr, len, [], 0);
    CombineSound(n, len, [], 0);
    CombineOrdered(n, len, [], 0);
    CombineCount(arr, len, [], 0);
    var idx := GetCombinations(Range(n), len);
    forall p | 0 <= p < |idx|
      ensures Selection(idx[p], n, len)
    {
      assert idx[p] in idx;
    }
    forall s | Selection(s, n, len)
      ensures s in idx
    {
      CombineComplete(n, len, [], 0, s);
    }
  }

  /** Picking at two index sequences from a sequence without repetitions gives the same result only for equal indices. */
  lemma PickInjective<T>(arr: seq<T>, i1: seq<int>, i2: seq<int>)
    requires Distinct(arr) && InRange(i1, |arr|) && InRange(i2, |arr|) && |i1| == |i2|
    requires Pick(arr, i1) == Pick(arr, i2)
    ensures i1 == i2
  {
    forall k | 0 <= k < |i1| ensures i1[k] == i2[k] {
      assert arr[i1[k]] == Pick(arr, i1)[k] == Pick(arr, i2)[k] == arr[i2[k]];
    }
  }

  /** For labels without repetitions, no two combinations are equal. */
  lemma CombinationsDistinct<T>(arr: seq<T>, len: nat)
    requires Distinct(arr)
    ensures Distinct(GetCombinations(arr, len))
  {
    CombinationsAreOrderedSelections(arr, len);
    var idx := GetCombinations(Range(|arr|), len);
    var els := GetCombinations(arr, len);
    forall p, q | 0 <= p < q < |els|
      ensures els[p] != els[q]
    {
      assert Lex(idx[p], idx[q]);
      if els[p] == els[q] {
        PickInjective(arr, idx[p], idx[q]);
        LexIrreflexive(idx[p]);
      }
    }
  }

  /** For labels without repetitions, no combination repeats a label. */
  lemma CombinationsRepeatNoLabel<T>(arr: seq<T>, len: nat)
    requires Distinct(arr)
    ensures forall c :: c in GetCombinations(arr, len) ==> Distinct(c)
  {
    CombinationsAreOrderedSelections(arr, len);
    var idx := GetCombinations(Range(|arr|), len);
    var els := GetCombinations(arr, len);
    forall c | c in els
      ensures Distinct(c)
    {
      var p :| 0 <= p < |els| && els[p] == c;
      assert Selection(idx[p], |arr|, len);
    }
  }

  /** Every `len`-selection of `arr` is among the combinations. */
  lemma CombinationsCoverSelections<T>(arr: seq<T>, len: nat)
    ensures forall s :: Selection(s, |arr|, len) ==> Pick(arr, s) in GetCombinations(arr, len)
  {
    CombinationsAreOrderedSelections(arr, len);
    var idx := GetCombinations(Range(|arr|), len);
    var els := GetCombinations(arr, len);
    forall s | Selection(s, |arr|, len)
      ensures Pick(arr, s) in els
    {
      var p :| 0 <= p < |idx| && idx[p] == s;
      assert els[p] == Pick(arr, s);
    }
  }

  /**
   * For labels without repetitions, every `len`-subset appears exactly once,
   * and no result repeats a label.
   */
  lemma CombinationsOfDistinctLabels<T>(arr: seq<T>, len: nat)
    requires Distinct(arr)
    ensures var els := GetCombinations(arr, len);
            && |els| == Binomial(|arr|, len)
            && Distinct(els)
            && (forall c :: c in els ==> Distinct(c))
            && (forall s :: Selection(s, |arr|, len) ==> Pick(arr, s) in els)
  {
    CombineCount(arr, len, [], 0);
    CombinationsDistinct(arr, len);
    CombinationsRepeatNoLabel(arr, len);
    CombinationsCoverSelections(arr, len);
  }
}

=== FILE: game.dfy ===
/**
 * The part of the game.js state that `generateTargetGraph` touches: the
 * circles, the canvas size and the target's regions. The random jitter is a
 * parameter: each of `Math.random() - 0.5` times 100, for x and y of each
 * circle.
 */
module Game {
  import opened Classifier
  import opened GameGraph

  datatype Game = Game(circles: Circles, width: int, height: int, targetGraph: RegionPoints)

  /** The shift `(Math.random() - 0.5) * 100` added to a circle's centre. */
  datatype Jitter = Jitter(dx: real, dy: real)

  /** A copy of the circle with its centre shifted by the jitter. */
  function Moved(c: Circle, j: Jitter): Circle
  {
    Circle(c.x + j.dx, c.y + j.dy, c.r)
  }

  /**
   * A whole-number jitter moves the disc with it: a point shifted by the
   * jitter is inside the moved circle exactly when the original point is
   * inside the original circle.
   */
  lemma MovedShiftsMembership(c: Circle, dx: int, dy: int, p: Point)
    ensures PointIn(Moved(c, Jitter(dx as real, dy as real)), Point(p.x + dx, p.y + dy)) == PointIn(c, p)
  {
  }

  /** The three circles, each a fresh copy moved by its own jitter. */
  function MovedCircles(cs: Circles, ja: Jitter, jb: Jitter, jc: Jitter): Circles
  {
    Circles(Moved(cs.a, ja), Moved(cs.b, jb), Moved(cs.c, jc))
  }

  /**
   * `generateTargetGraph()`: classifies the grid against jittered copies of
   * the circles, then puts the original circles back. Only `targetGraph`
   * changes; it holds the regions of the moved circles.
   */
  method GenerateTargetGraph(g: Game, ja: Jitter, jb: Jitter, jc: Jitter) returns (g': Game)
    ensures g'.circles == g.circles && g'.width == g.width && g'.height == g.height
    ensures g'.targetGraph == RegionPointsOf(MovedCircles(g.circles, ja, jb, jc), g.width, g.height)
  {
    var temp := MovedCircles(g.circles, ja, jb, jc);
    var original := g.circles;
    var during := g.(circles := temp);
    var target := GetRegionPoints(during.circles, during.width, during.height);
    g' := during.(targetGraph := target, circles := original);
  }

  /**
   * When all three circles take the same whole-number jitter, the picture
   * only translates: a point shifted by the jitter falls in the same region
   * of the moved circles as the original point does in the original circles.
   */
  lemma UniformShiftKeepsRegions(cs: Circles, dx: int, dy: int, p: Point)
    ensures var j := Jitter(dx as real, dy as real);
            Where(MovedCircles(cs, j, j, j), Point(p.x + dx, p.y + dy)) == Where(cs, p)
  {
    MovedShiftsMembership(cs.a, dx, dy, p);
    MovedShiftsMembership(cs.b, dx, dy, p);
    MovedShiftsMembership(cs.c, dx, dy, p);
  }

  /**
   * With no jitter the target is the player's own configuration: its regions
   * are the current regions, and `checkWin` accepts them at once.
   */
  lemma UnmovedTargetIsWon(g: Game)
    ensures var still := Jitter(0.0, 0.0);
            var current := RegionPointsOf(g.circles, g.width, g.height);
            var target := RegionPointsOf(MovedCircles(g.circles, still, still, still), g.width, g.height);
            target == current && CheckWin(current, target)
  {
    var still := Jitter(0.0, 0.0);
    assert MovedCircles(g.circles, still, still, still) == g.circles;
    CheckWinReflexiveSymmetric(RegionPointsOf(g.circles, g.width, g.height), RegionPointsOf(g.circles, g.width, g.height));
  }
}

=== FILE: gamegraph.dfy ===
/**
 * The region graph of game.js: `areAdjacent` decides whether two regions of
 * the three circles touch, `drawGraph` takes the non-empty regions as nodes
 * and examines every pair once, and `checkWin` compares the non-empty regions
 * of the player's circles with those of the target.
 */
module GameGraph {
  import opened Seqs
  import opened JsString
  import opened Classifier

  /** `dx * dx + dy * dy <= 25`: two sampled points at most 5 apart. */
  predicate Close(p1: Point, p2: Point)
  {
    var dx := p1.x - p2.x;
    var dy := p1.y - p2.y;
    dx * dx + dy * dy <= 25
  }

  lemma CloseSymmetric(p1: Point, p2: Point)
    ensures Close(p1, p2) == Close(p2, p1)
  {
    assert (p1.x - p2.x) * (p1.x - p2.x) == (p2.x - p1.x) * (p2.x - p1.x);
    assert (p1.y - p2.y) * (p1.y - p2.y) == (p2.y - p1.y) * (p2.y - p1.y);
  }

  /** The inner `for (const p2 of pts2)` loop: does any point of `pts2` lie close to `p1`? */
  function AnyCloseTo(p1: Point, pts2: seq<Point>): (b: bool)
    ensures b <==> exists j :: 0 <= j < |pts2| && Close(p1, pts2[j])
  {
    if pts2 == [] then false
    else if Close(p1, pts2[0]) then true
    else
      var b := AnyCloseTo(p1, pts2[1..]);
      assert b <==> exists j :: 1 <= j < |pts2| && Close(p1, pts2[j]) by {
        forall j | 1 <= j < |pts2| ensures pts2[1..][j - 1] == pts2[j] { }
        if b {
          var j :| 0 <= j < |pts2[1..]| && Close(p1, pts2[1..][j]);
          assert Close(p1, pts2[j + 1]);
        }
      }
      b
  }

  /** Both loops: is some point of `pts1` close to some point of `pts2`? */
  function AnyClose(pts1: seq<Point>, pts2: seq<Point>): (b: bool)
    ensures b <==> exists i, j :: 0 <= i < |pts1| && 0 <= j < |pts2| && Close(pts1[i], pts2[j])
  {
    if pts1 == [] then false
    else if AnyCloseTo(pts1[0], pts2) then true
    else
      var b := AnyClose(pts1[1..], pts2);
      assert b <==> exists i, j :: 1 <= i < |pts1| && 0 <= j < |pts2| && Close(pts1[i], pts2[j]) by {
        if b {
          var i, j :| 0 <= i < |pts1[1..]| && 0 <= j < |pts2| && Close(pts1[1..][i], pts2[j]);
          assert Close(pts1[i + 1], pts2[j]);
        } else {
          forall i, j | 1 <= i < |pts1| && 0 <= j < |pts2|
            ensures !Close(pts1[i], pts2[j])
          {
            assert pts1[1..][i - 1] == pts1[i];
          }
        }
      }
      b
  }

  /** The label test of `areAdjacent`: the labels share a circle and one of them names two or more circles. */
  predicate ShareByLabel(l1: Bin, l2: Bin)
  {
    Shared(l1.Label(), l2.Label()) && (|l1.Label()| > 1 || |l2.Label()| > 1)
  }

  /** Whether two regions touch: they share a circle by label, or two of their sampled points are close. */
  predicate AreAdjacent(l1: Bin, l2: Bin, regions: RegionPoints)
  {
    ShareByLabel(l1, l2) || AnyClose(regions.Get(l1), regions.Get(l2))
  }

  /**
   * Two labels that share a circle, one of them naming at least two circles,
   * are adjacent whatever points were sampled; for any other pair adjacency
   * holds exactly when some sampled point of one lies within distance 5 of
   * some sampled point of the other.
   */
  lemma AdjacencyByLabelOrByPoints(l1: Bin, l2: Bin, regions: RegionPoints)
    ensures ShareByLabel(l1, l2) ==> forall other: RegionPoints :: AreAdjacent(l1, l2, other)
    ensures !ShareByLabel(l1, l2) ==>
              (AreAdjacent(l1, l2, regions) <==>
               exists p1, p2 :: p1 in regions.Get(l1) && p2 in regions.Get(l2) && Close(p1, p2))
  {
    if !ShareByLabel(l1, l2) && AreAdjacent(l1, l2, regions) {
      var pts1, pts2 := regions.Get(l1), regions.Get(l2);
      var i, j :| 0 <= i < |pts1| && 0 <= j < |pts2| && Close(pts1[i], pts2[j]);
      assert pts1[i] in pts1 && pts2[j] in pts2;
    }
    if !ShareByLabel(l1, l2) && exists p1, p2 :: p1 in regions.Get(l1) && p2 in regions.Get(l2) && Close(p1, p2) {
      var p1, p2 :| p1 in regions.Get(l1) && p2 in regions.Get(l2) && Close(p1, p2);
      var pts1, pts2 := regions.Get(l1), regions.Get(l2);
      var i :| 0 <= i < |pts1| && pts1[i] == p1;
      var j :| 0 <= j < |pts2| && pts2[j] == p2;
    }
  }

  lemma ShareByLabelSymmetric(l1: Bin, l2: Bin)
    ensures ShareByLabel(l1, l2) == ShareByLabel(l2, l1)
  {
    if Shared(l1.Label(), l2.Label()) {
      var ch :| ch in l1.Label() && ch in l2.Label();
    }
    if Shared(l2.Label(), l1.Label()) {
      var ch :| ch in l2.Label() && ch in l1.Label();
    }
  }

  lemma AnyCloseSymmetric(pts1: seq<Point>, pts2: seq<Point>)
    ensures AnyClose(pts1, pts2) == AnyClose(pts2, pts1)
  {
    if AnyClose(pts1, pts2) {
      var i, j :| 0 <= i < |pts1| && 0 <= j < |pts2| && Close(pts1[i], pts2[j]);
      CloseSymmetric(pts1[i], pts2[j]);
    }
    if AnyClose(pts2, pts1) {
      var j, i :| 0 <= j < |pts2| && 0 <= i < |pts1| && Close(pts2[j], pts1[i]);
      CloseSymmetric(pts2[j], pts1[i]);
    }
  }

  /** `areAdjacent` gives the same answer with its two labels swapped. */
  lemma AdjacencySymmetric(l1: Bin, l2: Bin, regions: RegionPoints)
    ensures AreAdjacent(l1, l2, regions) == AreAdjacent(l2, l1, regions)
  {
    ShareByLabelSymmetric(l1, l2);
    AnyCloseSymmetric(regions.Get(l1), regions.Get(l2));
  }

  // ---------------------------------------------------------------------------
  // `drawGraph`: nodes and edges

  /** The keys of `bins`, in their order, whose regions hold at least one point. */
  function NonEmpty(bins: seq<Bin>, regions: RegionPoints): (names: seq<Bin>)
    ensures forall b :: b in names <==> b in bins && |regions.Get(b)| > 0
  {
    if bins == [] then []
    else (if |regions.Get(bins[0])| > 0 then [bins[0]] else []) + NonEmpty(bins[1..], regions)
  }

  /** The nodes `drawGraph` draws: the non-empty regions in key order. */
  function Nodes(regions: RegionPoints): seq<Bin>
  {
    NonEmpty(AllBins, regions)
  }

  /** A bin's position among the keys. */
  function Rank(b: Bin): (k: nat)
    ensures k < |AllBins| && AllBins[k] == b
  {
    match b
    case A => 0
    case B => 1
    case C => 2
    case AB => 3
    case BC => 4
    case AC => 5
    case ABC => 6
  }

  /** Strictly increasing by key position, hence without repetitions. */
  predicate InKeyOrder(names: seq<Bin>)
  {
    forall i, j :: 0 <= i < j < |names| ==> Rank(names[i]) < Rank(names[j])
  }

  /** A name ranked before every later name can go in front. */
  lemma InKeyOrderCons(u: Bin, rest: seq<Bin>)
    requires InKeyOrder(rest)
    requires forall v :: v in rest ==> Rank(u) < Rank(v)
    ensures InKeyOrder([u] + rest)
  {
    var names := [u] + rest;
    forall i, j | 0 <= i < j < |names| ensures Rank(names[i]) < Rank(names[j]) {
      assert names[j] == rest[j - 1];
      if i > 0 {
        assert names[i] == rest[i - 1];
      }
    }
  }

  lemma {:induction false} NonEmptyInKeyOrder(bins: seq<Bin>, regions: RegionPoints)
    requires InKeyOrder(bins)
    ensures InKeyOrder(NonEmpty(bins, regions))
  {
    if bins != [] {
      InKeyOrderTail(bins);
      NonEmptyInKeyOrder(bins[1..], regions);
      if |regions.Get(bins[0])| > 0 {
        InKeyOrderCons(bins[0], NonEmpty(bins[1..], regions));
      }
    }
  }

  /** The inner loop over `j > i`: the edges from `u` to the later names adjacent to it. */
  function EdgesFrom(u: Bin, later: seq<Bin>, regions: RegionPoints): seq<(Bin, Bin)>
  {
    if later == [] then []
    else (if AreAdjacent(u, later[0], regions) then [(u, later[0])] else []) + EdgesFrom(u, later[1..], regions)
  }

  /** The outer loop over `i`: every pair `i < j` of `names` is examined once. */
  function EdgesOf(names: seq<Bin>, regions: RegionPoints): seq<(Bin, Bin)>
  {
    if names == [] then [] else EdgesFrom(names[0], names[1..], regions) + EdgesOf(names[1..], regions)
  }

  /** The edges `drawGraph` draws, in drawing order. */
  function DrawnEdges(regions: RegionPoints): seq<(Bin, Bin)>
  {
    EdgesOf(Nodes(regions), regions)
  }

  lemma {:induction false} EdgesFromMembers(u: Bin, later: seq<Bin>, regions: RegionPoints)
    ensures forall e :: e in EdgesFrom(u, later, regions) <==> e.0 == u && e.1 in later && AreAdjacent(u, e.1, regions)
    ensures Distinct(later) ==> Distinct(EdgesFrom(u, later, regions))
  {
    if later != [] {
      EdgesFromMembers(u, later[1..], regions);
      assert later == [later[0]] + later[1..];
      if Distinct(later) {
        DistinctTail(later);
        DistinctConcat(if AreAdjacent(u, later[0], regions) then [(u, later[0])] else [], EdgesFrom(u, later[1..], regions));
      }
    }
  }

  /** Dropping the first name keeps the key order, and the first name comes before all the others. */
  lemma InKeyOrderTail(names: seq<Bin>)
    requires InKeyOrder(names) && |names| > 0
    ensures InKeyOrder(names[1..]) && Distinct(names[1..])
    ensures forall v :: v in names[1..] ==> Rank(names[0]) < Rank(v)
  {
    var later := names[1..];
    forall i, j | 0 <= i < j < |later| ensures Rank(later[i]) < Rank(later[j]) {
      assert later[i] == names[i + 1] && later[j] == names[j + 1];
    }
    forall v | v in later ensures Rank(names[0]) < Rank(v) {
      var k :| 0 <= k < |later| && later[k] == v;
      assert names[k + 1] == v;
    }
  }

  lemma {:induction false} EdgesOfMembers(names: seq<Bin>, regions: RegionPoints)
    requires InKeyOrder(names)
    ensures forall e :: e in EdgesOf(names, regions) <==>
              e.0 in names && e.1 in names && Rank(e.0) < Rank(e.1) && AreAdjacent(e.0, e.1, regions)
    ensures Distinct(EdgesOf(names, regions))
  {
    if names != [] {
      var u := names[0];
      var later := names[1..];
      var here := EdgesFrom(u, later, regions);
      var rest := EdgesOf(later, regions);
      InKeyOrderTail(names);
      EdgesFromMembers(u, later, regions);
      EdgesOfMembers(later, regions);
      assert u !in later;
      forall e
        ensures e in EdgesOf(names, regions) <==>
                e.0 in names && e.1 in names && Rank(e.0) < Rank(e.1) && AreAdjacent(e.0, e.1, regions)
      {
        assert e in EdgesOf(names, regions) <==> e in here || e in rest;
        assert e.0 in names <==> e.0 == u || e.0 in later;
        assert e.1 in names <==> e.1 == u || e.1 in later;
      }
      DistinctConcat(here, rest);
    }
  }

  lemma AllBinsInKeyOrder()
    ensures InKeyOrder(AllBins)
  {
    forall i, j | 0 <= i < j < |AllBins|
      ensures Rank(AllBins[i]) < Rank(AllBins[j])
    {
      assert Rank(AllBins[i]) == i && Rank(AllBins[j]) == j;
    }
  }

  /** The nodes are exactly the non-empty regions, in key order. */
  lemma NodesInKeyOrder(regions: RegionPoints)
    ensures forall b :: b in Nodes(regions) <==> |regions.Get(b)| > 0
    ensures InKeyOrder(Nodes(regions))
  {
    forall b ensures b in AllBins {
      AllBinsListsEveryBin(b);
    }
    AllBinsInKeyOrder();
    NonEmptyInKeyOrder(AllBins, regions);
  }

  /**
   * `drawGraph` draws a node for exactly the non-empty regions, each once,
   * in key order, and an edge for exactly the pairs of nodes with the first
   * earlier in key order that `areAdjacent` accepts: each such pair once,
   * and never a node to itself.
   */
  lemma DrawGraphNodesAndEdges(regions: RegionPoints)
    ensures forall b :: b in Nodes(regions) <==> |regions.Get(b)| > 0
    ensures Distinct(Nodes(regions))
    ensures forall e :: e in DrawnEdges(regions) <==>
              |regions.Get(e.0)| > 0 && |regions.Get(e.1)| > 0 && Rank(e.0) < Rank(e.1) && AreAdjacent(e.0, e.1, regions)
    ensures Distinct(DrawnEdges(regions))
    ensures forall e :: e in DrawnEdges(regions) ==> e.0 != e.1
  {
    var names := Nodes(regions);
    NodesInKeyOrder(regions);
    assert Distinct(names) by {
      forall i, j | 0 <= i < j < |names| ensures names[i] != names[j] {
        assert Rank(names[i]) < Rank(names[j]);
      }
    }
    EdgesOfMembers(names, regions);
  }

  // ---------------------------------------------------------------------------
  // `checkWin`

  /** The label string of each key, in the same order. */
  function Labels(names: seq<Bin>): (labels: seq<string>)
    ensures |labels| == |names| && forall k :: 0 <= k < |names| ==> labels[k] == names[k].Label()
  {
    if names == [] then [] else [names[0].Label()] + Labels(names[1..])
  }

  /** The labels of the non-empty regions, in ascending string order. */
  function SortedLabels(regions: RegionPoints): seq<string>
  {
    Sort(Labels(Nodes(regions)))
  }

  /** The length test and the element loop of `checkWin`, from index `i` on. */
  function SameFrom(a: seq<string>, b: seq<string>, i: nat): (same: bool)
    requires |a| == |b| && i <= |a|
    ensures same <==> a[i..] == b[i..]
    decreases |a| - i
  {
    if i == |a| then true
    else if a[i] != b[i] then false
    else
      var same := SameFrom(a, b, i + 1);
      assert a[i..] == [a[i]] + a[i + 1..] && b[i..] == [b[i]] + b[i + 1..];
      same
  }

  /** Whether `checkWin(current)` un-hides the win message: the two maps have the same non-empty labels. */
  function CheckWin(current: RegionPoints, target: RegionPoints): (win: bool)
    ensures win <==> SortedLabels(current) == SortedLabels(target)
  {
    var currentLabels := SortedLabels(current);
    var targetLabels := SortedLabels(target);
    if |currentLabels| != |targetLabels| then false
    else
      assert currentLabels[0..] == currentLabels && targetLabels[0..] == targetLabels;
      SameFrom(currentLabels, targetLabels, 0)
  }

  /** The label of `b` is among the labels of the nodes exactly when region `b` is non-empty. */
  lemma LabelOfNode(regions: RegionPoints, b: Bin)
    ensures b.Label() in multiset(SortedLabels(regions)) <==> |regions.Get(b)| > 0
  {
    var names := Nodes(regions);
    var labels := Labels(names);
    assert multiset(SortedLabels(regions)) == multiset(labels);
    if b.Label() in labels {
      var k :| 0 <= k < |labels| && labels[k] == b.Label();
      LabelsSpellCircles(names[k], b);
      assert names[k] == b;
    }
    if |regions.Get(b)| > 0 {
      assert b in names;
      var k :| 0 <= k < |names| && names[k] == b;
      assert labels[k] == b.Label();
    }
  }

  /**
   * `checkWin` signals a win exactly when the player's circles leave the same
   * regions non-empty as the target's: point counts and positions do not
   * matter.
   */
  lemma CheckWinIffSameNonEmptyRegions(current: RegionPoints, target: RegionPoints)
    ensures CheckWin(current, target) <==> forall b :: (|current.Get(b)| > 0 <==> |target.Get(b)| > 0)
  {
    if forall b :: (|current.Get(b)| > 0 <==> |target.Get(b)| > 0) {
      var n1, n2 := Nodes(current), Nodes(target);
      assert n1 == n2 by {
        NonEmptySameMask(AllBins, current, target);
      }
    }
    if CheckWin(current, target) {
      forall b
        ensures |current.Get(b)| > 0 <==> |target.Get(b)| > 0
      {
        LabelOfNode(current, b);
        LabelOfNode(target, b);
      }
    }
  }

  lemma {:induction false} NonEmptySameMask(bins: seq<Bin>, r1: RegionPoints, r2: RegionPoints)
    requires forall b :: (|r1.Get(b)| > 0 <==> |r2.Get(b)| > 0)
    ensures NonEmpty(bins, r1) == NonEmpty(bins, r2)
  {
    if bins != [] {
      NonEmptySameMask(bins[1..], r1, r2);
    }
  }

  /** `checkWin` is reflexive and symmetric. */
  lemma CheckWinReflexiveSymmetric(current: RegionPoints, target: RegionPoints)
    ensures CheckWin(current, current)
    ensures CheckWin(current, target) == CheckWin(target, current)
  {
    CheckWinIffSameNonEmptyRegions(current, current);
    CheckWinIffSameNonEmptyRegions(current, target);
    CheckWinIffSameNonEmptyRegions(target, current);
  }
}

=== FILE: jsstring.dfy ===
/**
 * JavaScript's relational comparison of strings (`a < b`) and the default
 * `Array.prototype.sort`, which orders strings by that comparison. Labels in
 * this program are plain ASCII, so comparing Dafny characters agrees with
 * comparing UTF-16 code units.
 */
module JsString {
  import opened Seqs

  /** `a < b` on strings: lexicographic by character, a proper prefix is smaller. */
  predicate Less(a: string, b: string)
  {
    if |b| == 0 then false
    else if |a| == 0 then true
    else if a[0] != b[0] then a[0] < b[0]
    else Less(a[1..], b[1..])
  }

  lemma {:induction false} LessIrreflexive(a: string)
    ensures !Less(a, a)
  {
    if |a| > 0 {
      LessIrreflexive(a[1..]);
    }
  }

  lemma {:induction false} LessAsymmetric(a: string, b: string)
    requires Less(a, b)
    ensures !Less(b, a)
  {
    if |a| > 0 && a[0] == b[0] {
      LessAsymmetric(a[1..], b[1..]);
    }
  }

  lemma {:induction false} LessTransitive(a: string, b: string, c: string)
    requires Less(a, b) && Less(b, c)
    ensures Less(a, c)
  {
    if |a| > 0 && a[0] == b[0] && b[0] == c[0] {
      LessTransitive(a[1..], b[1..], c[1..]);
    }
  }

  /** Any two different strings are ordered one way or the other. */
  lemma {:induction false} LessTotal(a: string, b: string)
    requires a != b
    ensures Less(a, b) || Less(b, a)
  {
    if |a| > 0 && |b| > 0 && a[0] == b[0] {
      assert a == [a[0]] + a[1..] && b == [b[0]] + b[1..];
      LessTotal(a[1..], b[1..]);
    }
  }

  /** Ascending order: no later string is smaller than an earlier one. */
  predicate Sorted(s: seq<string>) {
    forall i, j :: 0 <= i < j < |s| ==> !Less(s[j], s[i])
  }

  /** `Less` read as "not greater" is transitive. */
  lemma NotLessTransitive(a: string, b: string, c: string)
    requires !Less(b, a) && !Less(c, b)
    ensures !Less(c, a)
  {
    if Less(c, a) {
      if a != b {
        LessTotal(a, b);
        LessTransitive(c, a, b);
      }
    }
  }

  lemma SortedCons(h: string, t: seq<string>)
    requires Sorted(t)
    requires forall y :: y in t ==> !Less(y, h)
    ensures Sorted([h] + t)
  {
    forall i, j | 0 <= i < j < |[h] + t|
      ensures !Less(([h] + t)[j], ([h] + t)[i])
    {
      assert ([h] + t)[j] == t[j - 1];
      if i > 0 {
        assert ([h] + t)[i] == t[i - 1];
      }
    }
  }

  /** Every element of a sorted sequence is at least its head. */
  lemma HeadBound(x: string, s: seq<string>)
    requires Sorted(s)
    requires s != [] ==> !Less(s[0], x)
    ensures forall y :: y in s ==> !Less(y, x)
  {
    forall y | y in s ensures !Less(y, x) {
      var k :| 0 <= k < |s| && s[k] == y;
      if k > 0 {
        NotLessTransitive(x, s[0], y);
      }
    }
  }

  /** Inserting `x` above the head `s[0]` into the tail leaves `s[0]` a lower bound. */
  lemma InsertedAboveHead(x: string, s: seq<string>, rest: seq<string>)
    requires Sorted(s) && s != [] && Less(s[0], x)
    requires multiset(rest) == multiset(s[1..]) + multiset{x}
    ensures forall y :: y in rest ==> !Less(y, s[0])
  {
    SortedTail(s);
    forall y | y in rest ensures !Less(y, s[0]) {
      assert y in multiset(rest);
      if y == x {
        LessAsymmetric(s[0], x);
      } else {
        assert y in multiset(s[1..]);
        assert y in s;
      }
    }
  }

  function Insert(x: string, s: seq<string>): (r: seq<string>)
    requires Sorted(s)
    ensures Sorted(r)
    ensures multiset(r) == multiset(s) + multiset{x}
  {
    if s == [] || !Less(s[0], x) then
      HeadBound(x, s);
      SortedCons(x, s);
      [x] + s
    else
      SortedTail(s);
      var rest := Insert(x, s[1..]);
      InsertedAboveHead(x, s, rest);
      SortedCons(s[0], rest);
      assert s == [s[0]] + s[1..];
      [s[0]] + rest
  }

  /** The default `sort()`: an insertion sort by `Less`, returning a permutation in ascending order. */
  function Sort(s: seq<string>): (r: seq<string>)
    ensures Sorted(r)
    ensures multiset(r) == multiset(s)
  {
    if s == [] then []
    else
      assert s == [s[0]] + s[1..];
      Insert(s[0], Sort(s[1..]))
  }

  lemma SortedTail(s: seq<string>)
    requires Sorted(s) && |s| > 0
    ensures Sorted(s[1..])
    ensures forall y :: y in s ==> !Less(y, s[0])
  {
    forall i, j | 0 <= i < j < |s[1..]| ensures !Less(s[1..][j], s[1..][i]) {
      assert s[1..][i] == s[i + 1] && s[1..][j] == s[j + 1];
    }
    forall y | y in s ensures !Less(y, s[0]) {
      var k :| 0 <= k < |s| && s[k] == y;
      if k == 0 {
        LessIrreflexive(y);
      }
    }
  }

  /** Two ascending lists with the same elements start with the same string. */
  lemma SortedSameHead(a: seq<string>, b: seq<string>)
    requires Sorted(a) && Sorted(b) && multiset(a) == multiset(b) && |a| > 0
    ensures |b| > 0 && a[0] == b[0]
  {
    assert a[0] in multiset(b);
    SortedTail(a);
    SortedTail(b);
    assert b[0] in multiset(a);
    if a[0] != b[0] {
      LessTotal(a[0], b[0]);
    }
  }

  /** Two string lists in ascending order with the same elements are the same list. */
  lemma {:induction false} SortedUnique(a: seq<string>, b: seq<string>)
    requires Sorted(a) && Sorted(b) && multiset(a) == multiset(b)
    ensures a == b
  {
    if a != [] {
      SortedSameHead(a, b);
      SortedTail(a);
      SortedTail(b);
      assert a == [a[0]] + a[1..] && b == [b[0]] + b[1..];
      assert multiset(a[1..]) == multiset(a) - multiset{a[0]};
      assert multiset(b[1..]) == multiset(b) - multiset{b[0]};
      SortedUnique(a[1..], b[1..]);
    }
  }

  /** `sort()` depends only on the strings and how often each occurs, not on their order. */
  lemma SortIffSameElements(s: seq<string>, t: seq<string>)
    ensures Sort(s) == Sort(t) <==> multiset(s) == multiset(t)
  {
    if multiset(s) == multiset(t) {
      SortedUnique(Sort(s), Sort(t));
    }
  }
}

=== FILE: regiongraph.dfy ===
/**
 * The region graph of venn.js: `areRegionsAdjacent` (two regions touch when
 * their ids share a set label) and the edge loop of `createGraph`.
 */
module RegionGraph {
  import opened Seqs
  import opened JsString

  /** Whether some letter of `region1` also occurs in `region2`, scanning `region1` from the left. */
  function AreRegionsAdjacent(region1: string, region2: string): (b: bool)
    ensures b <==> Shared(region1, region2)
  {
    if |region1| == 0 then false
    else
      assert forall ch :: ch in region1 <==> ch == region1[0] || ch in region1[1..];
      region1[0] in region2 || AreRegionsAdjacent(region1[1..], region2)
  }

  /** Adjacency is symmetric, and every non-empty region is adjacent to itself. */
  lemma AdjacencySymmetricReflexive(r1: string, r2: string)
    ensures AreRegionsAdjacent(r1, r2) == AreRegionsAdjacent(r2, r1)
    ensures |r1| > 0 ==> AreRegionsAdjacent(r1, r1)
  {
    if |r1| > 0 {
      assert r1[0] in r1;
    }
  }

  type Edge = (string, string)

  /** The inner `forEach`: edges `(region1, region2)` for the keys `region2` after `region1` in string order. */
  function EdgesFrom(region1: string, keys: seq<string>): seq<Edge>
  {
    if keys == [] then []
    else
      var region2 := keys[0];
      (if Less(region1, region2) && AreRegionsAdjacent(region1, region2) then [(region1, region2)] else [])
      + EdgesFrom(region1, keys[1..])
  }

  /** The outer `forEach` over `outer`, each row scanning all of `keys`. */
  function EdgeRows(outer: seq<string>, keys: seq<string>): seq<Edge>
  {
    if outer == [] then [] else EdgesFrom(outer[0], keys) + EdgeRows(outer[1..], keys)
  }

  /** The edges `createGraph` adds, in the order it adds them. */
  function CreateGraph(keys: seq<string>): seq<Edge>
  {
    EdgeRows(keys, keys)
  }

  lemma {:induction false} EdgesFromCount(region1: string, keys: seq<string>, e: Edge)
    ensures multiset(EdgesFrom(region1, keys))[e] ==
            if e.0 == region1 && Less(e.0, e.1) && AreRegionsAdjacent(e.0, e.1) then multiset(keys)[e.1] else 0
  {
    if keys != [] {
      EdgesFromCount(region1, keys[1..], e);
      assert keys == [keys[0]] + keys[1..];
    }
  }

  lemma {:induction false} EdgeRowsCount(outer: seq<string>, keys: seq<string>, e: Edge)
    requires Distinct(outer) && Distinct(keys)
    ensures multiset(EdgeRows(outer, keys))[e] ==
            if e.0 in outer && e.1 in keys && Less(e.0, e.1) && AreRegionsAdjacent(e.0, e.1) then 1 else 0
  {
    if outer != [] {
      DistinctTail(outer);
      var row := EdgesFrom(outer[0], keys);
      var rest := EdgeRows(outer[1..], keys);
      EdgeRowsCount(outer[1..], keys, e);
      EdgesFromCount(outer[0], keys, e);
      DistinctCounts(keys, e.1);
      assert multiset(row + rest)[e] == multiset(row)[e] + multiset(rest)[e];
      assert e.0 in outer <==> e.0 == outer[0] || e.0 in outer[1..];
    }
  }

  /**
   * For region ids without repetitions, `createGraph` adds the edge
   * `(r1, r2)` exactly once when both are ids, `r1 < r2` and they are
   * adjacent, and never otherwise: so there are no self-loops, and each
   * adjacent pair of different ids is joined by exactly one edge.
   */
  lemma CreateGraphEdges(keys: seq<string>)
    requires Distinct(keys)
    ensures forall e: Edge :: multiset(CreateGraph(keys))[e] ==
              if e.0 in keys && e.1 in keys && Less(e.0, e.1) && AreRegionsAdjacent(e.0, e.1) then 1 else 0
    ensures forall e :: e in CreateGraph(keys) ==> e.0 != e.1
    ensures forall r1, r2 :: r1 in keys && r2 in keys && r1 != r2 && AreRegionsAdjacent(r1, r2) ==>
              ((r1, r2) in CreateGraph(keys) <==> (r2, r1) !in CreateGraph(keys))
  {
    var g := CreateGraph(keys);
    forall e: Edge
      ensures multiset(g)[e] ==
              if e.0 in keys && e.1 in keys && Less(e.0, e.1) && AreRegionsAdjacent(e.0, e.1) then 1 else 0
    {
      EdgeRowsCount(keys, keys, e);
    }
    forall e | e in g
      ensures e.0 != e.1
    {
      assert multiset(g)[e] > 0;
      LessIrreflexive(e.0);
    }
    forall r1, r2 | r1 in keys && r2 in keys && r1 != r2 && AreRegionsAdjacent(r1, r2)
      ensures (r1, r2) in g <==> (r2, r1) !in g
    {
      AdjacencySymmetricReflexive(r1, r2);
      LessTotal(r1, r2);
      if Less(r1, r2) {
        LessAsymmetric(r1, r2);
      } else {
        LessAsymmetric(r2, r1);
      }
      assert multiset(g)[(r1, r2)] > 0 <==> (r1, r2) in g;
      assert multiset(g)[(r2, r1)] > 0 <==> (r2, r1) in g;
    }
  }
}

=== FILE: regions.dfy ===
/**
 * The region ids of venn.js `generateRegions`: for `numSets` sets labelled
 * 'A', 'B', ..., every combination of 1..numSets labels becomes one region,
 * named by joining its labels. Labels are single characters, so joining a
 * combination is the combination read as a string.
 */
module Regions {
  import opened Seqs
  import opened Combinations

  /** The first `numSets` of the letters A to D, or all four when there are more sets. */
  function SetLabels(numSets: nat): (labels: string)
    ensures |labels| == if numSets <= 4 then numSets else 4
    ensures labels <= "ABCD"
    ensures Distinct(labels)
  {
    if numSets <= 4 then "ABCD"[..numSets] else "ABCD"
  }

  /** The ids of the regions of sizes `k` to `numSets`: by size, then in `getCombinations` order, each combination joined into a string. */
  function IdsFrom(labels: string, k: nat, numSets: nat): seq<string>
    decreases numSets + 1 - k
  {
    if k > numSets then [] else GetCombinations(labels, k) + IdsFrom(labels, k + 1, numSets)
  }

  /** The keys of `this.regions` after `generateRegions`, in insertion order. */
  function GenerateRegionIds(numSets: nat): seq<string>
  {
    IdsFrom(SetLabels(numSets), 1, numSets)
  }

  // ---------------------------------------------------------------------------
  // Counting

  function Pow2(n: nat): nat {
    if n == 0 then 1 else 2 * Pow2(n - 1)
  }

  /** C(n, 0) + C(n, 1) + ... + C(n, m - 1). */
  function BinomialPrefix(n: nat, m: nat): nat {
    if m == 0 then 0 else BinomialPrefix(n, m - 1) + Binomial(n, m - 1)
  }

  lemma {:induction false} BinomialAbove(n: nat, k: nat)
    requires k > n
    ensures Binomial(n, k) == 0
  {
    if n > 0 {
      BinomialAbove(n - 1, k - 1);
      BinomialAbove(n - 1, k);
    }
  }

  lemma {:induction false} BinomialPrefixPascal(n: nat, m: nat)
    ensures BinomialPrefix(n + 1, m + 1) == BinomialPrefix(n, m + 1) + BinomialPrefix(n, m)
  {
    if m > 0 {
      BinomialPrefixPascal(n, m - 1);
    }
  }

  /** C(n, 0) + ... + C(n, n) == 2^n. */
  lemma {:induction false} BinomialRow(n: nat)
    ensures BinomialPrefix(n, n + 1) == Pow2(n)
  {
    if n > 0 {
      BinomialRow(n - 1);
      BinomialPrefixPascal(n - 1, n);
      BinomialAbove(n - 1, n);
    }
  }

  lemma {:induction false} IdsFromCount(labels: string, k: nat, numSets: nat)
    requires 1 <= k <= numSets + 1
    ensures |IdsFrom(labels, k, numSets)| + BinomialPrefix(|labels|, k) == BinomialPrefix(|labels|, numSets + 1)
    decreases numSets + 1 - k
  {
    if k <= numSets {
      IdsFromCount(labels, k + 1, numSets);
      CombineCount(labels, k, [], 0);
    }
  }

  // ---------------------------------------------------------------------------
  // Contents

  /** A non-empty subset of the labels, written in label order. */
  ghost predicate IsRegionId(labels: string, id: string) {
    exists s :: Selection(s, |labels|, |id|) && |id| >= 1 && id == Pick(labels, s)
  }

  /** Each `k`-combination of the labels is a region id of `k` letters. */
  lemma CombinationsAreRegionIds(labels: string, k: nat)
    requires k >= 1
    ensures forall id :: id in GetCombinations(labels, k) ==> |id| == k && IsRegionId(labels, id)
  {
    CombinationsAreOrderedSelections(labels, k);
    var here := GetCombinations(labels, k);
    forall id | id in here
      ensures IsRegionId(labels, id)
    {
      var p :| 0 <= p < |here| && here[p] == id;
      var s := GetCombinations(Range(|labels|), k)[p];
      assert Selection(s, |labels|, |id|) && id == Pick(labels, s);
    }
  }

  lemma {:induction false} IdsFromContents(labels: string, k: nat, numSets: nat)
    requires Distinct(labels) && 1 <= k
    ensures Distinct(IdsFrom(labels, k, numSets))
    ensures forall id :: id in IdsFrom(labels, k, numSets) ==> k <= |id| <= numSets && IsRegionId(labels, id)
    ensures forall s :: k <= |s| <= numSets && Selection(s, |labels|, |s|) ==> Pick(labels, s) in IdsFrom(labels, k, numSets)
    decreases numSets + 1 - k
  {
    if k <= numSets {
      var here := GetCombinations(labels, k);
      var later := IdsFrom(labels, k + 1, numSets);
      IdsFromContents(labels, k + 1, numSets);
      CombinationsOfDistinctLabels(labels, k);
      CombinationsAreRegionIds(labels, k);
      assert forall id :: id in here ==> id !in later;
      DistinctConcat(here, later);
    }
  }

  /**
   * For 1 to 4 sets, `generateRegions` names 2^n - 1 regions, all different,
   * each one the in-order join of a non-empty subset of the labels, and every
   * such subset is named.
   */
  lemma RegionIdsAreAllNonEmptySubsets(numSets: nat)
    requires numSets <= 4
    ensures var labels := SetLabels(numSets);
            var ids := GenerateRegionIds(numSets);
            && |ids| == Pow2(numSets) - 1
            && Distinct(ids)
            && (forall id :: id in ids ==> IsRegionId(labels, id))
            && (forall s :: 1 <= |s| && Selection(s, numSets, |s|) ==> Pick(labels, s) in ids)
  {
    var labels := SetLabels(numSets);
    IdsFromCount(labels, 1, numSets);
    BinomialRow(numSets);
    IdsFromContents(labels, 1, numSets);
    forall s | 1 <= |s| && Selection(s, numSets, |s|)
      ensures |s| <= numSets
    {
      SelectionSize(s, numSets);
    }
  }

  /** An increasing selection from `0..n-1` has at most `n` elements. */
  lemma {:induction false} SelectionSize(s: seq<int>, n: int)
    requires n >= 0 && Selection(s, n, |s|)
    ensures |s| <= n
  {
    if |s| > 0 {
      var t := s[..|s| - 1];
      assert Selection(t, s[|s| - 1], |t|);
      SelectionSize(t, s[|s| - 1]);
    }
  }

  /** The one-letter combinations of "ABC". */
  lemma ThreeSetSingles()
    ensures GetCombinations("ABC", 1) == ["A", "B", "C"]
  {
    var labels := "ABC";
    assert "" + [labels[0]] == "A" && "" + [labels[1]] == "B" && "" + [labels[2]] == "C";
    assert Combine(labels, 1, "C", 3) == ["C"];
    assert Combine(labels, 1, "B", 2) == ["B"];
    assert Combine(labels, 1, "A", 1) == ["A"];
    assert Extend(labels, 1, "", 3) == [];
    assert Extend(labels, 1, "", 2) == ["C"];
    assert Extend(labels, 1, "", 1) == ["B", "C"];
  }

  /** The branch of `combine` that starts with "A" reaches two two-letter combinations. */
  lemma ThreeSetPairsFromA()
    ensures Combine("ABC", 2, "A", 1) == ["AB", "AC"]
  {
    var labels := "ABC";
    assert "A" + [labels[1]] == "AB" && "A" + [labels[2]] == "AC";
    assert Combine(labels, 2, "AC", 3) == ["AC"];
    assert Combine(labels, 2, "AB", 2) == ["AB"];
    assert Extend(labels, 2, "A", 3) == [];
    assert Extend(labels, 2, "A", 2) == ["AC"];
    assert Extend(labels, 2, "A", 1) == ["AB", "AC"];
  }

  /** The two-letter combinations of "ABC". */
  lemma ThreeSetPairs()
    ensures GetCombinations("ABC", 2) == ["AB", "AC", "BC"]
  {
    var labels := "ABC";
    ThreeSetPairsFromA();
    assert "" + [labels[0]] == "A" && "" + [labels[1]] == "B" && "" + [labels[2]] == "C";
    assert "B" + [labels[2]] == "BC";
    assert Combine(labels, 2, "BC", 3) == ["BC"];
    assert Extend(labels, 2, "B", 3) == [];
    assert Extend(labels, 2, "B", 2) == ["BC"];
    assert Extend(labels, 2, "C", 3) == [];
    assert Combine(labels, 2, "B", 2) == ["BC"];
    assert Combine(labels, 2, "C", 3) == [];
    assert Extend(labels, 2, "", 3) == [];
    assert Extend(labels, 2, "", 2) == [];
    assert Extend(labels, 2, "", 1) == ["BC"];
  }

  /** The branch of `combine` that starts with "A" reaches the one three-letter combination. */
  lemma ThreeSetTripleFromA()
    ensures Combine("ABC", 3, "A", 1) == ["ABC"]
  {
    var labels := "ABC";
    assert "A" + [labels[1]] == "AB" && "A" + [labels[2]] == "AC";
    assert "AB" + [labels[2]] == "ABC";
    assert Combine(labels, 3, "ABC", 3) == ["ABC"];
    assert Extend(labels, 3, "AB", 3) == [];
    assert Extend(labels, 3, "AB", 2) == ["ABC"];
    assert Combine(labels, 3, "AB", 2) == ["ABC"];
    assert Extend(labels, 3, "AC", 3) == [];
    assert Combine(labels, 3, "AC", 3) == [];
    assert Extend(labels, 3, "A", 3) == [];
    assert Extend(labels, 3, "A", 2) == [];
    assert Extend(labels, 3, "A", 1) == ["ABC"];
  }

  /** The three-letter combination of "ABC". */
  lemma ThreeSetTriple()
    ensures GetCombinations("ABC", 3) == ["ABC"]
  {
    var labels := "ABC";
    ThreeSetTripleFromA();
    assert "" + [labels[0]] == "A" && "" + [labels[1]] == "B" && "" + [labels[2]] == "C";
    assert "B" + [labels[2]] == "BC";
    assert Extend(labels, 3, "BC", 3) == [];
    assert Combine(labels, 3, "BC", 3) == [];
    assert Extend(labels, 3, "B", 3) == [];
    assert Extend(labels, 3, "B", 2) == [];
    assert Combine(labels, 3, "B", 2) == [];
    assert Extend(labels, 3, "C", 3) == [];
    assert Combine(labels, 3, "C", 3) == [];
    assert Extend(labels, 3, "", 3) == [];
    assert Extend(labels, 3, "", 2) == [];
    assert Extend(labels, 3, "", 1) == [];
  }

  lemma ThreeSetIdsFromThree()
    ensures IdsFrom("ABC", 3, 3) == ["ABC"]
  {
    ThreeSetTriple();
    assert IdsFrom("ABC", 4, 3) == [];
  }

  lemma ThreeSetIdsFromTwo()
    ensures IdsFrom("ABC", 2, 3) == ["AB", "AC", "BC", "ABC"]
  {
    ThreeSetPairs();
    ThreeSetIdsFromThree();
  }

  lemma ThreeSetIdsFromOne()
    ensures IdsFrom("ABC", 1, 3) == ["A", "B", "C", "AB", "AC", "BC", "ABC"]
  {
    ThreeSetSingles();
    ThreeSetIdsFromTwo();
    assert IdsFrom("ABC", 1, 3) == GetCombinations("ABC", 1) + IdsFrom("ABC", 2, 3);
    JoinThreeAndFour("A", "B", "C", "AB", "AC", "BC", "ABC");
  }

  lemma JoinThreeAndFour<T>(a: T, b: T, c: T, d: T, e: T, f: T, g: T)
    ensures [a, b, c] + [d, e, f, g] == [a, b, c, d, e, f, g]
  {
  }

  /** The three-set puzzle names its seven regions in this order. */
  lemma ThreeSetRegionIds()
    ensures GenerateRegionIds(3) == ["A", "B", "C", "AB", "AC", "BC", "ABC"]
  {
    assert SetLabels(3) == "ABC";
    ThreeSetIdsFromOne();
  }
}

=== FILE: seqs.dfy ===
/** Small facts about sequences shared by the models of venn.js and game.js. */
module Seqs {

  /** No element occurs twice. */
  predicate Distinct<T(==)>(s: seq<T>) {
    forall i, j :: 0 <= i < j < |s| ==> s[i] != s[j]
  }

  /** The two strings have at least one character in common (the labels name a common set). */
  predicate Shared(s1: string, s2: string) {
    exists ch :: ch in s1 && ch in s2
  }

  /** Dropping the head of a sequence without repetitions leaves one without repetitions that lacks the head. */
  lemma DistinctTail<T>(s: seq<T>)
    requires Distinct(s) && |s| > 0
    ensures Distinct(s[1..]) && s[0] !in s[1..]
  {
    forall i, j | 0 <= i < j < |s[1..]| ensures s[1..][i] != s[1..][j] {
      assert s[1..][i] == s[i + 1] && s[1..][j] == s[j + 1];
    }
    forall k | 0 <= k < |s[1..]| ensures s[1..][k] != s[0] {
      assert s[1..][k] == s[k + 1];
    }
  }

  lemma DistinctConcat<T>(a: seq<T>, b: seq<T>)
    requires Distinct(a) && Distinct(b)
    requires forall x :: x in a ==> x !in b
    ensures Distinct(a + b)
  {
    forall i, j | 0 <= i < j < |a + b|
      ensures (a + b)[i] != (a + b)[j]
    {
      if j < |a| {
      } else if i >= |a| {
        assert (a + b)[i] == b[i - |a|] && (a + b)[j] == b[j - |a|];
      } else {
        assert (a + b)[i] == a[i] && (a + b)[j] == b[j - |a|];
        assert a[i] in a && b[j - |a|] in b;
      }
    }
  }

  /** Every element of a sequence without repetitions occurs exactly once in its multiset. */
  lemma {:induction false} DistinctCounts<T>(s: seq<T>, x: T)
    requires Distinct(s)
    ensures multiset(s)[x] == (if x in s then 1 else 0)
  {
    if s != [] {
      assert s == [s[0]] + s[1..];
      DistinctTail(s);
      DistinctCounts(s[1..], x);
    }
  }

  /** A permutation of a sequence without repetitions has none either. */
  lemma DistinctPermutation<T>(s: seq<T>, t: seq<T>)
    requires Distinct(s) && multiset(s) == multiset(t)
    ensures Distinct(t)
  {
    forall i, j | 0 <= i < j < |t|
      ensures t[i] != t[j]
    {
      if t[i] == t[j] {
        var x := t[i];
        assert t == t[..j] + t[j..];
        assert x in t[..j] && x in t[j..] by {
          assert t[..j][i] == x;
          assert t[j..][0] == x;
        }
        assert multiset(t)[x] == multiset(t[..j])[x] + multiset(t[j..])[x];
        DistinctCounts(s, x);
        assert false;
      }
    }
  }

  lemma {:induction false} ConstantCount<T>(s: seq<T>, x: T)
    requires forall k :: 0 <= k < |s| ==> s[k] == x
    ensures multiset(s)[x] == |s|
  {
    if s != [] {
      ConstantCount(s[1..], x);
      assert s == [x] + s[1..];
    }
  }

  /** A non-empty sequence without repetitions whose elements all equal `x` is `[x]`. */
  lemma DistinctConstant<T>(s: seq<T>, x: T)
    requires Distinct(s) && |s| > 0
    requires forall k :: 0 <= k < |s| ==> s[k] == x
    ensures s == [x]
  {
    ConstantCount(s, x);
    DistinctCounts(s, x);
  }
}
